=== FILE: README.md ===
# Gaming lounge slot booking, modelled in Dafny

This project models the logic of a browser demo where a user logs in, picks
a game, chooses a time slot, pays through a simulated payment check, and
gets a confirmed booking in a persisted history. It covers three parts of the
application:

- **The root (`App.tsx`).** It holds the catalog of games and slots and the
  booking history. It records a confirmed booking with `handleBookSlot`. It
  decides which screen is shown, filters the catalog by the search query,
  and loads the history from browser storage.
- **The booking page (`components/BookingPage.tsx`).** It runs the payment
  state machine: select a slot, poll the payment verifier on an interval,
  finalise on SUCCESS, cancel by closing the modal, clean up the interval,
  and end the confirmation.
- **The login form (`components/Login.tsx`).** It sanitises the phone and
  code inputs and has a two-stage phone → code gate with the demo code
  `123456`.

Every handler is a pure function over immutable datatypes, and event
sequences are folded by `Run` functions. The invariant lemmas cover every
event sequence. The composed-flow lemmas cover every in-order run from a
coherent start (`Flow.Serial`, `Flow.Coherent`).
`BookingPage.OneBookingPerInterval` covers sequences without an effect
re-run. Each scenario lemma is about one fixed run.

Modules:

- `Types` mirrors `types.ts`.
- `Catalog` is the catalog and ledger update of `handleBookSlot`.
- `Search` is `filteredGames`.
- `App` is the root's state, screen choice and history load/persist.
- `BookingPage` is the payment state machine.
- `Flow` composes the page with the root: each `onBookSlot` call runs the
  update of the `handleBookSlot` instance the calling interval captured.
- `Login` is the login form.

## How the page's asynchrony is modelled

The page state holds the component's own state and its polling ref. Beside
them it holds what the browser keeps:

- every interval ever started, with what its callback closed over: the
  `game` and `onBookSlot` props and the selected slot;
- the intervals not yet cleared;
- the verification calls still awaiting an answer.

These are separate events:

- an interval firing, which starts a call;
- a call resolving with SUCCESS, PENDING or a rejection;
- the effect re-running, which is the previous run's cleanup and then the
  body;
- unmount cleanup;
- new props.

The environment may order them freely. This covers every schedule React and
the browser can choose.

`handleBookSlot` is memoised over the catalog and the history, so every
booking gives the root a new instance, and the page's callbacks keep the one
they closed over. The model identifies an instance by the two values it
closed over (`Types.Handler`). A call applies its update to those values,
not to the root's current ones. Each booking re-renders the page with the
new instance and the updated copy of the open game.

## Behaviour of the code the model keeps

The model follows the code in each case below, including where a stricter
behaviour might be expected.

- **Booking an already-booked slot.** `handleBookSlot` does no availability
  check. Booking a slot again leaves the catalog as it was but appends a
  second record (`Catalog.RebookAppendsAgain`). The only guard is upstream,
  in `handleSlotSelect`.
- **Booking ids.** The id is the timestamp joined with the game and slot
  ids. Two bookings of the same slot under one clock reading therefore share
  an id (`Catalog.RebookAppendsAgain`).
- **The late-answer guard.** The finalise step checks only that the polling
  ref is non-null, not that it still names the interval whose call is
  answering. A call started by an earlier interval can answer SUCCESS while
  a later selection is polling. It then books the earlier slot and clears
  the later interval (`BookingPage.StaleAnswerBooksEarlierSlot`).
- **Stale `handleBookSlot` instances.** A call runs the instance its
  interval captured. If another booking happened after that capture, the
  call rebuilds catalog and history from the older snapshot. The slot booked
  in between shows as available again, and its record leaves the history
  (`App.StaleHandlerRollsBack`, `Flow.OverlappingCallsRollBack`). This needs
  two verification calls in flight at once.
- **Several matching games or slots.** The code marks every slot whose id
  matches, inside every game whose id matches. The record takes its title
  and time from the last match the scan met. The model keeps this general
  behaviour and does not assume ids are unique.

## Model

| member | source | states |
|---|---|---|
| Catalog.MarkSlots | App.tsx:69-75 | every slot with the target id comes back booked, every other slot keeps its status, and ids and times never change |
| Catalog.MarkGames | App.tsx:67-80 | games with the target id get their slots marked, other games come back equal, and no game field other than `slots` changes |
| Catalog.FirstGame | App.tsx:98 | returns the first game with the id, and nothing exactly when no game has it |
| Catalog.LastGame | App.tsx:76-77 | the game `bookedGame` ends up holding is the last one with the id, and is absent exactly when none has it |
| Catalog.LastSlotOf | App.tsx:69-73 | the last slot with the id within one game's list, absent exactly when none has it |
| Catalog.LastSlot | App.tsx:64-75 | `bookedSlot` is set exactly when some game with the id holds a slot with the id, and then it is one of those slots |
| Catalog.LastSlotIsLastInScanOrder | App.tsx:64-75 | the slot `bookedSlot` ends up holding is the last targeted slot in scan order: no targeted slot lies in a later game, or later in the same game |
| Catalog.ScanOrderInLastGame | App.tsx:64-75 | when the last game has the id and holds the slot id, its last such slot is what `bookedSlot` holds, and it is last in scan order |
| Catalog.ScanOrderSkipsLastGame | App.tsx:64-75 | when the last game does not hold the target, `bookedSlot` keeps what the earlier games gave it, and that slot is still last in scan order |
| Catalog.BookSlot | App.tsx:63-102 | the catalog is marked; a record is created exactly when the target exists; the history is then the old history plus that one record at the end; the record carries the id made from timestamp, game id and slot id, the title of the last game with the id, the time of the last matching slot, the timestamp and the amount; the open game is re-pointed to an updated game with the id, exactly when the catalog has one |
| Catalog.BookSlotReopensFirstCopy | App.tsx:98-101 | the game the page is re-pointed to is the first game with the id in the updated catalog |
| Catalog.RecordDescribesTarget | App.tsx:83-91 | when the target exists, the record's title is that of a game with the id and its time that of a targeted slot |
| Catalog.BookSlotTargetsOnly | App.tsx:67-80 | every targeted slot becomes booked, and every other slot of every game is left exactly as it was |
| Catalog.BookedStaysBooked | App.tsx:69-73 | the update never releases a booked slot |
| Catalog.MarkSlotsNoMatch | App.tsx:69-75 | a slot list without the id comes back equal |
| Catalog.NotFoundKeepsCatalog | App.tsx:67-83 | when no game with the id holds a slot with the id, the catalog comes back equal (and by `BookSlot` the history is unchanged) |
| Catalog.MarkGamesIdempotent | App.tsx:67-80 | marking the marked catalog again changes nothing |
| Catalog.RebookKeepsCatalog | App.tsx:67-80 | booking the same slot a second time leaves the catalog as the first booking left it |
| Catalog.RebookAppendsAgain | App.tsx:83-95 | booking an existing slot twice appends two records, both with the same id when the clock reading is the same |
| Catalog.FoundAfterMarking | App.tsx:67-80 | a target that exists before marking still exists after it |
| Catalog.NaturalText | App.tsx:85 | the decimal rendering of a non-negative id is a non-empty digit string with no leading zero, except for 0 itself |
| Catalog.NaturalTextValue | App.tsx:85 | reading the decimal rendering back gives the number |
| Catalog.NaturalTextInjective | App.tsx:85 | different non-negative numbers render differently |
| Catalog.NumberText | App.tsx:85 | an id renders with a leading minus exactly when it is negative, followed by digits only |
| Catalog.NumberTextInjective | App.tsx:85 | different ids render differently |
| Catalog.BookingId | App.tsx:85 | the record id starts with the clock reading followed by a dash |
| Catalog.BookingIdDeterminesTarget | App.tsx:85 | under one clock reading the record id `${timestamp}-${gameId}-${slotId}` determines the game id and the slot id |
| Catalog.SplitAtDash | App.tsx:85 | two rendered ids joined by a dash split back uniquely |
| Search.Lower | App.tsx:109 | lower-casing keeps the length and lower-cases letter by letter |
| Search.Includes | App.tsx:109 | `includes` is true exactly when the needle occurs at some position of the text |
| Search.Filter | App.tsx:108-110 | keeps each matching game as often as it occurs and drops every game that does not match |
| Search.FilterAppend | App.tsx:108-110 | filtering keeps relative order: it distributes over concatenation |
| Search.EmptyQueryKeepsAll | App.tsx:104-107 | the empty query shows the whole catalog, and the early return agrees with the filter it skips |
| Search.FilteredGames | App.tsx:104-111 | definition: the whole catalog for the empty query, otherwise the filter; `Search.FilteredGamesIsFilter` proves the two agree |
| Search.FilteredGamesIsFilter | App.tsx:104-111 | for every query the shown games are the filtered catalog |
| Search.QueryCaseIgnored | App.tsx:109 | a query and its lower-cased form show the same games |
| Search.LowerIdempotent | App.tsx:109 | lower-casing twice is lower-casing once |
| App.View | App.tsx:113-165 | the login screen exactly when logged out; otherwise the history screen whenever the history view is on, even with a game selected; otherwise the booking page exactly when a game is selected, and the catalog filtered by the query when none is |
| App.Persist | App.tsx:93-95 | definition: the value written under the history key is the serialised new history; `App.PersistRoundTrip` proves a reload reads it back |
| App.LoadHistory | App.tsx:21-30 | a missing key, an empty text and a text that fails to parse leave the history as it was; a text that parses to a list replaces the history with that list |
| App.Mount | App.tsx:13-30 | the first screen is the login screen with the initial catalog, no game selected, an empty query and the history view off; the history is empty unless storage holds a parsable list |
| App.Login | App.tsx:32-34 | after login the login screen is no longer shown, and no field except the login flag changes |
| App.Logout | App.tsx:36-41 | logout shows the login screen and clears the selection, query and history view, leaving catalog, history and storage untouched |
| App.SelectGame | App.tsx:43-47 | once logged in, the booking screen opens a game with the chosen id: the catalog's first game with that id when it has one, otherwise the game as passed; the history view is turned off and nothing else changes |
| App.Back | App.tsx:49-51 | back from the booking page shows the catalog filtered by the current query; only the selection is cleared |
| App.ShowHistory | App.tsx:53-56 | the history screen shows the current history; only the selection and the history flag change |
| App.GoHome | App.tsx:58-61 | home shows the catalog filtered by the current query; only the selection and the history flag change |
| App.SelectThenBackRestores | App.tsx:43-51 | opening a game from the catalog and going back returns the root to exactly the state it had, showing the same filtered catalog |
| App.LastNavigationWins | App.tsx:53-61 | home and history override each other: the screen is decided by the last of the two pressed, and pressing either twice is pressing it once |
| App.SetSearch | App.tsx:104-111 | on the catalog screen, the games shown follow the new query, and nothing else changes |
| App.BookSlot | App.tsx:63-102 | a call of one `handleBookSlot` instance: the catalog becomes the marked copy of the catalog the instance closed over; when the target exists there, the history becomes the instance's history plus exactly one record at the end, the record `Catalog.BookSlot` builds for the target, and storage holds it; otherwise history and storage are left as they are; the open game is re-pointed at the first updated game with the id when there is one and kept otherwise |
| App.CurrentHandlerAppends | App.tsx:93-95 | a call of the instance the root currently renders with only appends to the history |
| App.StaleHandlerRollsBack | App.tsx:63-102 | an instance that already booked one slot, called again for another, replaces the first record with the second and shows the first slot available again, although the root showed it booked |
| App.PersistRoundTrip | App.tsx:21-30 | a fresh mount over a stored history loads that same history |
| App.BookingSurvivesReload | App.tsx:83-96 | after booking an existing slot, a reload sees the history that includes the new record |
| App.LogoutLoginShowsWholeCatalog | App.tsx:36-41 | logging out and in again shows the whole catalog, with the history unchanged |
| BookingPage.InitialValid | components/BookingPage.tsx:14-20 | the first render satisfies the page invariant |
| BookingPage.Initial | components/BookingPage.tsx:14-20 | definition: the first render with no selection, not verifying, no confirmation, a null ref, no intervals and no calls |
| BookingPage.HandleSlotSelect | components/BookingPage.tsx:22-27 | a booked slot changes nothing; an available slot becomes the selection and starts verifying; nothing else changes |
| BookingPage.CleanupEffect | components/BookingPage.tsx:63-69 | cleanup stops the interval the ref names and leaves the ref null |
| BookingPage.HandleCloseModal | components/BookingPage.tsx:29-36 | closing stops the ref's interval, drops the selection and stops verifying |
| BookingPage.RunEffectBody | components/BookingPage.tsx:38-40 | an interval is started exactly when a slot is selected and verifying, under a fresh id, capturing the current game, slot and `onBookSlot`, after the previous interval was cleared |
| BookingPage.FireTimer | components/BookingPage.tsx:40-42 | only an interval that was not cleared starts a verification call |
| BookingPage.ResolveCall | components/BookingPage.tsx:41-60 | `onBookSlot` is called exactly on a SUCCESS answer while the ref is non-null; it books what the resolving interval captured, through the `onBookSlot` it captured, clears the ref's interval, ends verifying and confirms that game and slot; PENDING and rejected calls change nothing but retire the call |
| BookingPage.HandleConfirmationEnd | components/BookingPage.tsx:74-78 | the confirmation flag, game and slot are cleared and nothing else changes |
| BookingPage.Step | components/BookingPage.tsx:22-78 | only a SUCCESS answer under a non-null ref calls `onBookSlot`, and the ref is null afterwards; closing the modal never calls it |
| BookingPage.StepPreservesValid | components/BookingPage.tsx:13-78 | every event keeps the invariant: the only running interval is the ref's, and selected or captured slots were available |
| BookingPage.CallNamesCapturedSlot | components/BookingPage.tsx:43-50 | every booking call names a slot that was available when selected, in the game shown at that moment, and goes to the `onBookSlot` the page had then |
| BookingPage.AtMostOneLive | components/BookingPage.tsx:63-69 | at most one interval is running at any time |
| BookingPage.Run | components/BookingPage.tsx:13-78 | every page reachable by events satisfies the invariant |
| BookingPage.CallsBoundedByIntervals | components/BookingPage.tsx:38-55 | over any events, booking calls plus running intervals never exceed the intervals started plus the one running at the outset |
| BookingPage.StepBound | components/BookingPage.tsx:43-45 | one step either consumes the running interval for its call or starts a new one |
| BookingPage.OneBookingPerInterval | components/BookingPage.tsx:43-48 | without a new interval there is at most one booking, and none once the ref is null, whatever SUCCESS answers arrive |
| BookingPage.NoEffectKeepsCounter | components/BookingPage.tsx:38-40 | only the effect starts intervals |
| BookingPage.NoSuccessNoCalls | components/BookingPage.tsx:43-48 | without a SUCCESS answer no event sequence calls `onBookSlot` |
| BookingPage.RunAppend | components/BookingPage.tsx:13-78 | running two event sequences in turn is running their concatenation, with the calls in order |
| BookingPage.RunQuiet | components/BookingPage.tsx:22-42 | events that call nothing leave no calls and move the page along their chain of states |
| BookingPage.StaleAnswerBooksEarlierSlot | components/BookingPage.tsx:43-50 | a late SUCCESS for an earlier selection books that earlier slot and stops the later interval |
| BookingPage.SecondSelectionPolling | components/BookingPage.tsx:22-42 | after select, fire, close and select again, the second interval polls while the call for the first slot is still pending |
| Flow.Step | components/BookingPage.tsx:43-55 | a step that does not call `onBookSlot` leaves the root as it was; a call of the root's current instance only appends to the history; after a call the page renders with the root's new instance |
| Flow.StepRunsCall | App.tsx:63-102 | a step that calls `onBookSlot` leaves the root as the called instance's update makes it |
| Flow.StepKeepsPageRuntime | components/BookingPage.tsx:38-55 | re-rendering after a call changes only the page's props: its intervals, ref and pending calls stay as the page event left them |
| Flow.MountCoherent | App.tsx:160-164 | a page first rendered by the root holds the root's current `handleBookSlot` |
| Flow.StepKeepsCoherent | components/BookingPage.tsx:38-71 | with calls answered one at a time and props from the root, every call runs the root's current instance, and the page, its running interval and its call in flight keep holding that instance |
| Flow.BookingLeavesPageIdle | components/BookingPage.tsx:43-55 | a booking call comes from the one call in flight and leaves no interval running and no call pending |
| Flow.QuietStepKeepsCoherent | components/BookingPage.tsx:22-42 | an in-order event that books nothing keeps the page on the root's current instance |
| Flow.QuietAnswerKeepsCoherent | components/BookingPage.tsx:41-60 | an answer that books nothing only retires its call |
| Flow.EffectKeepsCoherent | components/BookingPage.tsx:38-40 | a new interval captures the instance the page renders with |
| Flow.FireKeepsCoherent | components/BookingPage.tsx:40-42 | an interval that fires with no call pending starts the only call in flight |
| Flow.FormEventKeepsCoherent | components/BookingPage.tsx:22-36 | selecting, closing, cleanup, confirmation end and new props from the root capture nothing new |
| Flow.LedgerOnlyGrows | App.tsx:93-94 | over inputs delivered in order from a coherent start, the earlier history is a prefix of the later one |
| Flow.NoSuccessNoChange | components/BookingPage.tsx:29-48 | without a SUCCESS answer, catalog, history and storage are unchanged, so cancelling before SUCCESS leaves no trace |
| Flow.BookedStaysBooked | App.tsx:69-73 | over inputs delivered in order from a coherent start, a slot shown as booked is never shown as available again |
| Flow.SerialAt | components/BookingPage.tsx:40-48 | in a run delivered in order, each input is in order in the state the earlier inputs lead to |
| Flow.RunOneMore | App.tsx:63-102 | running one more input is one more step |
| Flow.OverlappingCallsRollBack | App.tsx:63-102 | when the call for slot `b` books `b` while the call for `a` is still pending, and that call then answers SUCCESS, `b` is available again and the history ends in `a`'s record instead of `b`'s |
| Flow.OverlappingRunNotSerial | components/BookingPage.tsx:40-48 | that run fires an interval while a call is pending |
| Flow.SetupNotSerial | components/BookingPage.tsx:40-48 | a run that fires a live interval, at any position, while a call is pending is not in order |
| Flow.OverlapSetup | components/BookingPage.tsx:22-42 | select, fire, close, select and fire again leave two calls pending, both captured with the first instance |
| Flow.OverlapFirstBooking | App.tsx:63-102 | the answer to the second call books `b` and appends its record, with the first call still pending |
| Flow.BookFirstAnswer | App.tsx:63-102 | the step answering the second call books `b` through the first instance |
| Flow.FirstAnswerPage | components/BookingPage.tsx:43-55 | answering call 2 with SUCCESS stops polling and leaves call 1, for `a`, in flight |
| Flow.FirstAnswerApp | App.tsx:63-102 | answering call 2 with SUCCESS books `b` through the root's current instance and appends `b`'s record |
| Flow.BookLateAnswer | App.tsx:63-102 | selecting `a` again and then answering the first call rebuilds catalog and history from the first instance's snapshot |
| Flow.LateStep | App.tsx:63-102 | the late answer books `a` in the first instance's catalog and appends to the first instance's history |
| Flow.BookOneOfTwo | App.tsx:63-96 | in a one-game catalog with two distinct slots, booking one marks that slot alone and appends its record |
| Flow.HandlerBooksOneOfTwo | App.tsx:63-102 | an instance closed over a one-game, two-slot catalog makes the root hold the marked catalog and the instance's history plus that slot's record |
| Flow.RunAppend | App.tsx:63-102 | running two input sequences in turn is running their concatenation |
| Flow.RunQuiet | components/BookingPage.tsx:22-42 | inputs that call nothing leave the root unchanged |
| Flow.PendingTwice | components/BookingPage.tsx:38-60 | after select and two PENDING answers the page still polls under its first interval with one call in flight |
| Flow.PaymentAfterTwoPendingBooks | components/BookingPage.tsx:43-55 | PENDING twice and then SUCCESS books the slot, appends its record, persists the history, and shows the confirmation with polling stopped |
| Flow.CancelAfterTwoPendingLeavesNoTrace | components/BookingPage.tsx:29-36 | PENDING twice and then closing the modal leaves catalog, history and storage unchanged and the page idle with nothing running |
| Login.DigitsOnly | components/Login.tsx:45 | the filtered text has only digits and is no longer than the input |
| Login.DigitsOnlyCounts | components/Login.tsx:45 | the filter keeps every digit as often as it occurs and no other character |
| Login.DigitsOnlyChar | components/Login.tsx:45 | on one character the filter keeps a digit and drops anything else |
| Login.Truncate | components/Login.tsx:46 | the result is the prefix of length `min(n, length)` |
| Login.Initial | components/Login.tsx:21-23 | definition: the form starts with an empty number, an empty code and the phone stage |
| Login.SendOtpEnabled | components/Login.tsx:92 | definition: "Send OTP" is enabled exactly when the number has ten characters |
| Login.VerifyEnabled | components/Login.tsx:123 | definition: "Verify & Login" is enabled exactly when the code has six characters |
| Login.Sanitize | components/Login.tsx:44-47 | the stored value is digits only, at most the limit, and is the first digits of the input |
| Login.DigitsOnlyAppend | components/Login.tsx:45 | digit filtering distributes over concatenation; with `DigitsOnlyChar` this fixes the result on every string as the digits of the input in their order |
| Login.DigitsOnlyKeepsDigits | components/Login.tsx:45 | a digit string passes the filter unchanged |
| Login.SanitizeIdempotent | components/Login.tsx:45-46 | sanitising a sanitised value returns it unchanged |
| Login.SanitizeKeepsValid | components/Login.tsx:44-47 | a value that is already digits within the limit is kept as typed |
| Login.PhoneChange | components/Login.tsx:44-47 | the phone field becomes the first ten digits of the input (all of them if fewer); the code and stage are untouched |
| Login.OtpChange | components/Login.tsx:49-52 | the code field becomes the first six digits of the input (all of them if fewer); the phone and stage are untouched |
| Login.PhoneSubmit | components/Login.tsx:25-31 | the code stage opens exactly when the number has ten characters; otherwise nothing changes |
| Login.OtpSubmit | components/Login.tsx:33-42 | `onLogin` is called exactly when the code is `123456`; otherwise the code is emptied and the stage stays |
| Login.ChangeNumber | components/Login.tsx:129-130 | back to the phone stage, keeping the typed number |
| Login.Step | components/Login.tsx:71-130 | a login happens only in the code stage with the demo code; in the phone stage only phone input and submit do anything |
| Login.StepPreservesValid | components/Login.tsx:21-52 | every action keeps both fields digit-only within their limits, and the code stage only holds a ten-digit number |
| Login.RunKeepsValid | components/Login.tsx:20-130 | over any actions the form stays valid, and a login happens only with a ten-digit number and the demo code |
| Login.Run | components/Login.tsx:20-130 | definition: actions are applied in turn until one calls `onLogin`, after which the form is gone and later actions have no effect |
| Login.LoginNeedsBothGates | components/Login.tsx:20-130 | from the first render, no sequence of actions logs in without a ten-digit number and the code `123456` |

## Left out

- Browser storage and JSON text. Reading and writing the key is modelled as an optional stored value, which is the empty text, a text that fails to parse, or a parsed booking list. A text that parses to something other than a list of bookings is not modelled.
- The two clock reads of `handleBookSlot` (record id and booking date). They are one opaque `now` string per booking. The ISO formatting and the chance that the two reads differ are not modelled.
- Interval and timeout durations: 3000 ms polling, and the verifier's and the confirmation's delays. Firing and resolving are discrete events in any order. Timing itself is not modelled. Where a lemma needs the effect of timing, `Flow.InOrder` states it: a live interval fires only when no call is pending. This follows from the verifier's 1.5 s delay (services/paymentVerifier.ts:12) being shorter than the 3 s interval, when timers fire on time.
- LedgerOnlyGrows: holds only for runs that are in order (`Flow.Serial`) from a coherent start (`Flow.Coherent`). When two verification calls overlap, a stale `handleBookSlot` instance drops a record (`Flow.OverlappingCallsRollBack`), so the history is not append-only over every event order.
- BookedStaysBooked: holds only under the same in-order and coherent conditions. Overlapping calls can show a booked slot as available again (`App.StaleHandlerRollsBack`).
- A `localStorage.setItem` that throws (storage full or blocked). `handleBookSlot` would throw at App.tsx:95 after updating catalog and history. The page's `catch` at components/BookingPage.tsx:57-60 would swallow it after the ref was already nulled at lines 44-45. The confirmation and re-pointing steps would be skipped, but catalog and history were already set (App.tsx:81, 94). The root would re-render with a new `handleBookSlot`, so the page's effect (components/BookingPage.tsx:71) would re-run with the slot still selected and verifying, and start a new interval. Every later SUCCESS would book the same slot again, append another record and throw again. The model's storage write always succeeds.
- New props are an event carrying any game and any `handleBookSlot` instance. In the composed flow, `Flow.InOrder` requires the instance to be the root's current one.
- The verifier's `Math.random` in services/paymentVerifier.ts. It is an oracle: each call's answer is an event parameter, SUCCESS, PENDING or a rejection.
- The values of `PAYMENT_AMOUNT` and the initial `GAMES` from constants.ts, which is not part of this model. They are parameters.
- Ids are taken to be integers whose magnitude is below 10^21. JavaScript numbers may also be fractional or non-finite, print in exponent form from 10^21 on, and are exact only up to 2^53.
- `toLowerCase` is modelled for ASCII letters only. Unicode case mapping is not.
- The sorting and date formatting of components/HistoryPage.tsx. They depend on date parsing and locale formatting.
- Presentation components (PaymentModal, BookingConfirmation, Header, MusicPlayer, GameCard), markup, styles, `console` logging and `alert`.
- React's render scheduling. Effect runs and unmount cleanup are explicit events that may happen at any point. This admits more orders than React produces.
- Controls of the login stage that is not rendered, and submits while the submit button is disabled, are modelled as actions that do nothing.

=== FILE: app.dfy ===
/** The application root (App.tsx): which screen is shown, the catalog, the
    search query and the booking history with its persisted copy. Browser
    storage is modelled as one optional value under the history key; the
    JSON text itself is abstracted to what parsing it yields. */
module App {
  import opened Types
  import Catalog
  import Search

  /** What the storage key holds when present: the empty string, or a text
      whose parse either yields a booking list or throws (`parsed == None`). */
  datatype Stored = EmptyText | Text(parsed: Option<seq<Booking>>)

  datatype AppState = AppState(
    games: seq<Game>,
    selectedGame: Option<Game>,
    loggedIn: bool,
    searchQuery: string,
    showHistory: bool,
    history: seq<Booking>,
    storage: Option<Stored>)

  /** The screen the root renders. */
  datatype Screen =
    | LoginScreen
    | HistoryScreen(bookings: seq<Booking>)
    | CatalogScreen(shown: seq<Game>)
    | BookingScreen(game: Game)

  function View(a: AppState): (r: Screen)
    ensures r.LoginScreen? <==> !a.loggedIn
    ensures r.HistoryScreen? <==> a.loggedIn && a.showHistory
    ensures r.BookingScreen? <==> a.loggedIn && !a.showHistory && a.selectedGame.Some?
    ensures r.HistoryScreen? ==> r.bookings == a.history
    ensures r.BookingScreen? ==> a.selectedGame == Some(r.game)
    ensures r.CatalogScreen? ==> r.shown == Search.Filter(a.games, a.searchQuery)
  {
    Search.FilteredGamesIsFilter(a.games, a.searchQuery);
    if !a.loggedIn then LoginScreen
    else if a.showHistory then HistoryScreen(a.history)
    else if a.selectedGame.None? then CatalogScreen(Search.FilteredGames(a.games, a.searchQuery))
    else BookingScreen(a.selectedGame.value)
  }

  /** The value the root writes under the history key after a booking.
      Serialising a list gives a non-empty text that parses back to the
      same records. */
  function Persist(history: seq<Booking>): Stored {
    Text(Some(history))
  }

  /** The history-loading effect: a missing key, an empty text and a text
      that does not parse all leave `current` in place. */
  function LoadHistory(current: seq<Booking>, stored: Option<Stored>): (r: seq<Booking>)
    ensures (stored.None? || stored == Some(EmptyText) || stored == Some(Text(None))) ==> r == current
    ensures stored.Some? && stored.value.Text? && stored.value.parsed.Some? ==> r == stored.value.parsed.value
  {
    match stored
    case None => current
    case Some(EmptyText) => current
    case Some(Text(None)) => current
    case Some(Text(Some(h))) => h
  }

  /** The root as first mounted, after the history-loading effect ran. */
  function Mount(initialGames: seq<Game>, stored: Option<Stored>): (a: AppState)
    ensures View(a) == LoginScreen
    ensures a.games == initialGames && a.storage == stored
    ensures (stored.None? || stored == Some(EmptyText) || stored == Some(Text(None))) ==> a.history == []
    ensures a.selectedGame.None? && a.searchQuery == "" && !a.showHistory
  {
    AppState(initialGames, None, false, "", false, LoadHistory([], stored), stored)
  }

  /** `handleLogin`: the login screen gives way to whatever the rest of the
      state selects; nothing but the flag changes. */
  function Login(a: AppState): (r: AppState)
    ensures View(r) != LoginScreen
    ensures r.(loggedIn := a.loggedIn) == a
  {
    a.(loggedIn := true)
  }

  /** `handleLogout`: back to the login screen with selection, query and
      history view cleared; catalog, history and storage untouched. */
  function Logout(a: AppState): (r: AppState)
    ensures View(r) == LoginScreen
    ensures r.selectedGame.None? && r.searchQuery == "" && !r.showHistory
    ensures r.games == a.games && r.history == a.history && r.storage == a.storage
  {
    a.(loggedIn := false, selectedGame := None, searchQuery := "", showHistory := false)
  }

  /** `handleGameSelect`: opens the catalog's current copy of the game when
      the catalog holds one with its id, otherwise the game as passed. */
  function SelectGame(a: AppState, g: Game): (r: AppState)
    ensures a.loggedIn ==> View(r).BookingScreen? && View(r).game.id == g.id
    ensures Catalog.FirstGame(a.games, g.id).Some? ==> r.selectedGame == Catalog.FirstGame(a.games, g.id)
    ensures Catalog.FirstGame(a.games, g.id).None? ==> r.selectedGame == Some(g)
    ensures !r.showHistory
    ensures r.(selectedGame := a.selectedGame, showHistory := a.showHistory) == a
  {
    var current := Catalog.FirstGame(a.games, g.id);
    a.(selectedGame := Some(if current.Some? then current.value else g), showHistory := false)
  }

  /** `handleBack`: leaves the booking page for the catalog. */
  function Back(a: AppState): (r: AppState)
    ensures a.loggedIn && !a.showHistory ==> View(r) == CatalogScreen(Search.FilteredGames(a.games, a.searchQuery))
    ensures r.selectedGame.None?
    ensures r.(selectedGame := a.selectedGame) == a
  {
    a.(selectedGame := None)
  }

  /** `handleShowHistory`. */
  function ShowHistory(a: AppState): (r: AppState)
    ensures a.loggedIn ==> View(r) == HistoryScreen(a.history)
    ensures r.selectedGame.None? && r.showHistory
    ensures r.(selectedGame := a.selectedGame, showHistory := a.showHistory) == a
  {
    a.(selectedGame := None, showHistory := true)
  }

  /** `handleGoHome`: the catalog, still filtered by the current query. */
  function GoHome(a: AppState): (r: AppState)
    ensures a.loggedIn ==> View(r) == CatalogScreen(Search.FilteredGames(a.games, a.searchQuery))
    ensures r.selectedGame.None? && !r.showHistory
    ensures r.(selectedGame := a.selectedGame, showHistory := a.showHistory) == a
  {
    a.(selectedGame := None, showHistory := false)
  }

  /** The search box: on the catalog screen the shown games follow the
      new query; nothing but the query changes. */
  function SetSearch(a: AppState, query: string): (r: AppState)
    ensures a.loggedIn && !a.showHistory && a.selectedGame.None? ==>
      View(r) == CatalogScreen(Search.FilteredGames(a.games, query))
    ensures r.(searchQuery := a.searchQuery) == a
  {
    a.(searchQuery := query)
  }

  /** The `handleBookSlot` instance the root renders with: memoised over
      its current catalog and history. */
  function OnBookSlot(a: AppState): Handler {
    Handler(a.games, a.history)
  }

  /** A call of the `handleBookSlot` instance `h`. Its update is computed
      from the catalog and history `h` closed over, not from the root's
      current ones: the catalog becomes the marked copy of `h.games`; when
      the target exists in it the history becomes `h.history` plus the
      record and is written to storage, otherwise history and storage stay
      as they are; the open game is re-pointed at its updated copy. */
  function BookSlot(a: AppState, h: Handler, gameId: int, slotId: int, now: string, amount: string): (r: AppState)
    ensures r.games == Catalog.MarkGames(h.games, gameId, slotId)
    ensures !Catalog.Found(h.games, gameId, slotId) ==> r.history == a.history && r.storage == a.storage
    ensures Catalog.Found(h.games, gameId, slotId) ==>
      |r.history| == |h.history| + 1 && r.history[..|h.history|] == h.history && r.storage == Some(Persist(r.history))
    ensures r.loggedIn == a.loggedIn && r.showHistory == a.showHistory && r.searchQuery == a.searchQuery
    ensures Catalog.Found(h.games, gameId, slotId) ==>
      r.history[|h.history|] == Catalog.BookSlot(h.games, h.history, gameId, slotId, now, amount).record.value
    ensures r.selectedGame ==
      if Catalog.FirstGame(r.games, gameId).Some? then Catalog.FirstGame(r.games, gameId) else a.selectedGame
  {
    var out := Catalog.BookSlot(h.games, h.history, gameId, slotId, now, amount);
    a.(games := out.games,
       history := if out.record.Some? then out.history else a.history,
       storage := if out.record.Some? then Some(Persist(out.history)) else a.storage,
       selectedGame := if out.selected.Some? then out.selected else a.selectedGame)
  }

  /** Called on the instance the root currently renders with, a booking
      only appends to the history: the earlier history is a prefix of the
      later one. */
  lemma CurrentHandlerAppends(a: AppState, gameId: int, slotId: int, now: string, amount: string)
    ensures var r := BookSlot(a, OnBookSlot(a), gameId, slotId, now, amount);
      |a.history| <= |r.history| && r.history[..|a.history|] == a.history
  {
  }

  /** A stale instance rolls back the booking made since it was created.
      Say the instance `h` of root `a0` books slot 1, giving root `a`; if
      the same instance is then called for slot 2, everything is rebuilt
      from `h`'s snapshot: the history ends in the new record where the
      first one stood, and a copy of slot 1 that `h` saw available and that
      is not also a target of the second call is available again, although
      `a` shows it booked. */
  lemma StaleHandlerRollsBack(a0: AppState, h: Handler, g1: int, s1: int, g2: int, s2: int,
                              now1: string, now2: string, amount: string, i: int, j: int)
    requires Catalog.Found(h.games, g1, s1) && Catalog.Found(h.games, g2, s2)
    requires Catalog.SlotAt(h.games, g1, s1, i, j) && h.games[i].slots[j].status == Available
    requires !Catalog.SlotAt(h.games, g2, s2, i, j)
    ensures var out1 := Catalog.BookSlot(h.games, h.history, g1, s1, now1, amount);
      var out2 := Catalog.BookSlot(h.games, h.history, g2, s2, now2, amount);
      var a := BookSlot(a0, h, g1, s1, now1, amount);
      var r := BookSlot(a, h, g2, s2, now2, amount);
      && a.history == h.history + [out1.record.value]
      && r.history == h.history + [out2.record.value]
      && a.games[i].slots[j].status == Booked
      && r.games[i].slots[j].status == Available
  {
    Catalog.BookSlotTargetsOnly(h.games, h.history, g1, s1, now1, amount);
    Catalog.BookSlotTargetsOnly(h.games, h.history, g2, s2, now2, amount);
  }

  /** Persisting and loading round-trip: a fresh mount over what was stored
      sees the same history. */
  lemma PersistRoundTrip(initialGames: seq<Game>, history: seq<Booking>)
    ensures Mount(initialGames, Some(Persist(history))).history == history
  {
  }

  /** A booking survives a reload: mounting again over the storage left by a
      booking of an existing slot loads the history that now ends in it. */
  lemma BookingSurvivesReload(a: AppState, gameId: int, slotId: int, now: string, amount: string, initialGames: seq<Game>)
    requires Catalog.Found(a.games, gameId, slotId)
    ensures var r := BookSlot(a, OnBookSlot(a), gameId, slotId, now, amount);
      Mount(initialGames, r.storage).history == r.history && |r.history| == |a.history| + 1
  {
  }

  /** Opening a game from the catalog and going back restores the root as
      it was: the same filtered catalog is shown again. */
  lemma SelectThenBackRestores(a: AppState, g: Game)
    requires a.selectedGame.None? && !a.showHistory
    ensures Back(SelectGame(a, g)) == a
    ensures a.loggedIn ==> View(Back(SelectGame(a, g))) == CatalogScreen(Search.FilteredGames(a.games, a.searchQuery))
  {
  }

  /** The header's two buttons override each other: only the last one
      pressed decides the screen, whatever was open before. */
  lemma LastNavigationWins(a: AppState)
    ensures GoHome(ShowHistory(a)) == GoHome(a)
    ensures ShowHistory(GoHome(a)) == ShowHistory(a)
    ensures GoHome(GoHome(a)) == GoHome(a) && ShowHistory(ShowHistory(a)) == ShowHistory(a)
  {
  }

  /** Logging out and in again lands on the unfiltered catalog with the
      same games and history. */
  lemma LogoutLoginShowsWholeCatalog(a: AppState)
    ensures View(Login(Logout(a))) == CatalogScreen(a.games)
    ensures Login(Logout(a)).history == a.history
  {
    Search.EmptyQueryKeepsAll(a.games);
  }
}

=== FILE: booking_page.dfy ===
/** The booking page's payment flow (components/BookingPage.tsx).

    Selecting an available slot opens the payment modal in the verifying
    state. A React effect then starts a browser interval whose callback asks
    the payment verifier for the status; a SUCCESS answer received while the
    polling ref is non-null finalises the booking through `onBookSlot`.

    The page state holds the component's own state and ref, and beside them
    what the browser keeps: every interval started with the values its
    callback closed over, the set of intervals not yet cleared, and the
    verification calls still awaiting their answer. React's scheduling of
    the effect is left to the environment: `RunEffect` (cleanup of the
    previous run, then the effect body) and `Cleanup` (unmount) are events
    that may occur at any point, which covers every order React can choose. */
module BookingPage {
  import opened Types

  /** The answer to one verification call; `Failed` is a rejected promise. */
  datatype Verification = Success | Pending | Failed

  /** What an interval's callback closed over when the effect created it:
      the `game` and `onBookSlot` props and the selected slot. */
  datatype Capture = Capture(game: Game, slot: Slot, onBookSlot: Handler)

  datatype Page = Page(
    game: Game,
    onBookSlot: Handler,
    selected: Option<Slot>,
    verifying: bool,
    polling: Option<nat>,
    showConfirmation: bool,
    confirmationGame: Option<Game>,
    confirmationSlot: Option<Slot>,
    timers: map<nat, Capture>,
    live: set<nat>,
    inflight: seq<nat>,
    nextTimer: nat)

  datatype Event =
    | SelectSlot(slot: Slot)
    | CloseModal
    | RunEffect
    | Cleanup
    | Fire(timer: nat)
    | Resolve(call: nat, result: Verification)
    | NewProps(game: Game, onBookSlot: Handler)
    | ConfirmationEnd

  /** A call `onBookSlot(gameId, slotId)`, on the handler instance the
      calling interval captured. */
  datatype BookCall = BookCall(gameId: int, slotId: int, onBookSlot: Handler)

  datatype Stepped = Stepped(page: Page, call: Option<BookCall>)

  /** The intervals the polling ref keeps alive: its own, if it holds one. */
  function RefSet(polling: Option<nat>): set<nat> {
    if polling.Some? then {polling.value} else {}
  }

  /** The page as first rendered with its two props. Interval ids are
      abstract: each new interval takes the next unused number, from 1. */
  function Initial(game: Game, onBookSlot: Handler): Page {
    Page(game, onBookSlot, None, false, None, false, None, None, map[], {}, [], 1)
  }

  /** What holds of every page the events below can produce. */
  ghost predicate Valid(p: Page) {
    // exactly the interval the ref names is still running
    && p.live == RefSet(p.polling)
    && (forall t :: t in p.timers ==> t < p.nextTimer)
    && (p.polling.Some? ==> p.polling.value in p.timers)
    && (forall i :: 0 <= i < |p.inflight| ==> p.inflight[i] in p.timers)
    // a slot only becomes selected, and so captured, while it is available
    && (p.selected.Some? ==> p.selected.value.status == Available)
    && (forall t :: t in p.timers ==> p.timers[t].slot.status == Available)
    && (p.showConfirmation ==> p.confirmationGame.Some? && p.confirmationSlot.Some?)
  }

  lemma InitialValid(game: Game, onBookSlot: Handler)
    ensures Valid(Initial(game, onBookSlot))
  {
  }

  /** `handleSlotSelect`: a booked slot is ignored; an available one becomes
      the selection and verification starts. */
  function HandleSlotSelect(p: Page, slot: Slot): (r: Page)
    ensures slot.status == Booked ==> r == p
    ensures slot.status == Available ==> r.selected == Some(slot) && r.verifying
    ensures r == p.(selected := r.selected, verifying := r.verifying)
  {
    if slot.status == Available then p.(selected := Some(slot), verifying := true) else p
  }

  /** The effect's cleanup: clears the interval the ref names, if any. */
  function CleanupEffect(p: Page): (r: Page)
    ensures r.polling.None?
    ensures r.live == p.live - RefSet(p.polling)
    ensures r == p.(polling := None, live := r.live)
  {
    if p.polling.Some? then p.(live := p.live - {p.polling.value}, polling := None) else p
  }

  /** `handleCloseModal`: stops polling and drops the selection. */
  function HandleCloseModal(p: Page): (r: Page)
    ensures r.polling.None? && r.selected.None? && !r.verifying
    ensures r.live == p.live - RefSet(p.polling)
    ensures r == p.(polling := None, live := r.live, selected := None, verifying := false)
  {
    CleanupEffect(p).(selected := None, verifying := false)
  }

  /** The effect re-run after a dependency changed: the previous run's
      cleanup, then the body, which starts a fresh interval capturing the
      current props and selection when a slot is selected and verifying. */
  function RunEffectBody(p: Page): (r: Page)
    ensures r.polling.Some? <==> p.selected.Some? && p.verifying
    ensures r.polling.Some? ==>
      && r.polling.value == p.nextTimer
      && r.timers == p.timers[p.nextTimer := Capture(p.game, p.selected.value, p.onBookSlot)]
      && r.live == (p.live - RefSet(p.polling)) + {p.nextTimer}
      && r.nextTimer == p.nextTimer + 1
    ensures r.polling.Some? ==> r == p.(polling := r.polling, live := r.live, timers := r.timers, nextTimer := r.nextTimer)
    ensures r.polling.None? ==> r == CleanupEffect(p)
  {
    var c := CleanupEffect(p);
    if c.selected.Some? && c.verifying then
      var id := c.nextTimer;
      c.(polling := Some(id), live := c.live + {id}, timers := c.timers[id := Capture(c.game, c.selected.value, c.onBookSlot)],
         nextTimer := id + 1)
    else c
  }

  /** A live interval fires: its callback starts a verification call. A
      cleared interval no longer fires. */
  function FireTimer(p: Page, t: nat): (r: Page)
    ensures t in p.live ==> r == p.(inflight := p.inflight + [t])
    ensures t !in p.live ==> r == p
  {
    if t in p.live then p.(inflight := p.inflight + [t]) else p
  }

  /** Removes entry `k` of a sequence. */
  function RemoveAt(s: seq<nat>, k: nat): (r: seq<nat>)
    requires k < |s|
    ensures |r| == |s| - 1
    ensures forall i :: 0 <= i < |r| ==> r[i] == if i < k then s[i] else s[i + 1]
  {
    s[..k] + s[k + 1..]
  }

  /** Verification call `k` resolves with `v`. On SUCCESS while the ref is
      non-null, the callback clears the ref's interval, books the slot and
      game its own interval captured through the `onBookSlot` it captured,
      and shows the confirmation. The ref is
      only compared with null: it need not be the resolving call's own
      interval. Any other answer, and a rejected call, change nothing but
      retire the call. */
  function ResolveCall(p: Page, k: nat, v: Verification): (r: Stepped)
    ensures k >= |p.inflight| ==> r == Stepped(p, None)
    ensures k < |p.inflight| ==> r.page.inflight == RemoveAt(p.inflight, k)
    ensures r.call.Some? <==>
      k < |p.inflight| && v == Success && p.polling.Some? && p.inflight[k] in p.timers
    ensures r.call.None? ==> r.page == p.(inflight := r.page.inflight)
    ensures r.call.Some? ==>
      var c := p.timers[p.inflight[k]];
      && r.call.value == BookCall(c.game.id, c.slot.id, c.onBookSlot)
      && r.page.polling.None?
      && r.page.live == p.live - {p.polling.value}
      && r.page.selected.None? && !r.page.verifying
      && r.page.showConfirmation
      && r.page.confirmationGame == Some(c.game) && r.page.confirmationSlot == Some(c.slot)
      && r.page.timers == p.timers && r.page.nextTimer == p.nextTimer
      && r.page.game == p.game && r.page.onBookSlot == p.onBookSlot
  {
    if k >= |p.inflight| then Stepped(p, None)
    else
      var t := p.inflight[k];
      var p1 := p.(inflight := RemoveAt(p.inflight, k));
      // `t in p.timers` always holds on a valid page (see `Valid`)
      if v == Success && p.polling.Some? && t in p.timers then
        var c := p.timers[t];
        var done := p1.(live := p.live - {p.polling.value}, polling := None,
                        confirmationGame := Some(c.game), confirmationSlot := Some(c.slot),
                        selected := None, verifying := false, showConfirmation := true);
        Stepped(done, Some(BookCall(c.game.id, c.slot.id, c.onBookSlot)))
      else Stepped(p1, None)
  }

  /** `handleConfirmationEnd`. */
  function HandleConfirmationEnd(p: Page): (r: Page)
    ensures !r.showConfirmation && r.confirmationGame.None? && r.confirmationSlot.None?
    ensures r.(showConfirmation := p.showConfirmation, confirmationGame := p.confirmationGame,
               confirmationSlot := p.confirmationSlot) == p
  {
    p.(showConfirmation := false, confirmationGame := None, confirmationSlot := None)
  }

  /** One event. Only a SUCCESS answer under a non-null ref calls
      `onBookSlot`, and that call leaves the ref null. */
  function Step(p: Page, e: Event): (r: Stepped)
    ensures r.call.Some? ==> e.Resolve? && e.result == Success && p.polling.Some? && r.page.polling.None?
    ensures e.CloseModal? ==> r.call.None? && r.page.polling.None? && r.page.selected.None?
    ensures p.nextTimer <= r.page.nextTimer
    ensures !e.RunEffect? ==> r.page.nextTimer == p.nextTimer
  {
    match e
    case SelectSlot(slot) => Stepped(HandleSlotSelect(p, slot), None)
    case CloseModal => Stepped(HandleCloseModal(p), None)
    case RunEffect => Stepped(RunEffectBody(p), None)
    case Cleanup => Stepped(CleanupEffect(p), None)
    case Fire(t) => Stepped(FireTimer(p, t), None)
    case Resolve(k, v) => ResolveCall(p, k, v)
    case NewProps(g, h) => Stepped(p.(game := g, onBookSlot := h), None)
    case ConfirmationEnd => Stepped(HandleConfirmationEnd(p), None)
  }

  lemma StepPreservesValid(p: Page, e: Event)
    requires Valid(p)
    ensures Valid(Step(p, e).page)
  {
    match e
    case Resolve(k, v) =>
      if k < |p.inflight| {
        var r := Step(p, e).page;
        assert forall i :: 0 <= i < |r.inflight| ==> r.inflight[i] in p.inflight;
      }
    case _ =>
  }

  /** Every `onBookSlot` call names a slot that was available when the user
      selected it, inside the game the page showed at that moment. It need
      not be the slot selected now: a late answer books what its own
      interval captured, through the handler it captured. */
  lemma CallNamesCapturedSlot(p: Page, e: Event)
    requires Valid(p)
    requires Step(p, e).call.Some?
    ensures exists t :: (t in p.timers && p.timers[t].slot.status == Available
      && Step(p, e).call.value == BookCall(p.timers[t].game.id, p.timers[t].slot.id, p.timers[t].onBookSlot))
  {
    var t := p.inflight[e.call];
    assert t in p.timers;
  }

  /** At most one interval is running at any time. */
  lemma AtMostOneLive(p: Page)
    requires Valid(p)
    ensures |p.live| <= 1
  {
  }

  /** The state after a sequence of events, and the `onBookSlot` calls made
      on the way, in order. */
  datatype Trace = Trace(page: Page, calls: seq<BookCall>)

  function Run(p: Page, es: seq<Event>): (r: Trace)
    requires Valid(p)
    ensures Valid(r.page)
    decreases |es|
  {
    if |es| == 0 then Trace(p, [])
    else
      var s := Step(p, es[0]);
      StepPreservesValid(p, es[0]);
      var rest := Run(s.page, es[1..]);
      Trace(rest.page, (if s.call.Some? then [s.call.value] else []) + rest.calls)
  }

  /** At most one booking per interval: every call consumes the live
      interval, and only the effect body starts a new one. Counted over any
      sequence of events, calls plus running intervals never exceed the
      intervals started plus the one running at the outset. */
  lemma {:induction false} CallsBoundedByIntervals(p: Page, es: seq<Event>)
    requires Valid(p)
    ensures p.nextTimer <= Run(p, es).page.nextTimer
    ensures |Run(p, es).calls| + |Run(p, es).page.live| <= Run(p, es).page.nextTimer - p.nextTimer + |p.live|
    decreases |es|
  {
    if |es| > 0 {
      var s := Step(p, es[0]);
      StepPreservesValid(p, es[0]);
      CallsBoundedByIntervals(s.page, es[1..]);
      StepBound(p, es[0]);
    }
  }

  /** The one-step form of the bound above. */
  lemma StepBound(p: Page, e: Event)
    requires Valid(p)
    ensures var s := Step(p, e);
      (if s.call.Some? then 1 else 0) + |s.page.live| <= s.page.nextTimer - p.nextTimer + |p.live|
  {
    StepPreservesValid(p, e);
    AtMostOneLive(Step(p, e).page);
  }

  /** Without a new interval there is at most one booking, and none at all
      when no interval was running: once a SUCCESS has been finalised,
      further SUCCESS answers book nothing. */
  lemma {:induction false} OneBookingPerInterval(p: Page, es: seq<Event>)
    requires Valid(p)
    requires forall i :: 0 <= i < |es| ==> !es[i].RunEffect?
    ensures |Run(p, es).calls| <= |p.live| <= 1
    ensures p.polling.None? ==> Run(p, es).calls == []
  {
    NoEffectKeepsCounter(p, es);
    CallsBoundedByIntervals(p, es);
  }

  lemma {:induction false} NoEffectKeepsCounter(p: Page, es: seq<Event>)
    requires Valid(p)
    requires forall i :: 0 <= i < |es| ==> !es[i].RunEffect?
    ensures Run(p, es).page.nextTimer == p.nextTimer
    decreases |es|
  {
    if |es| > 0 {
      var s := Step(p, es[0]);
      StepPreservesValid(p, es[0]);
      NoEffectKeepsCounter(s.page, es[1..]);
    }
  }

  /** No SUCCESS answer, no booking: closing the modal, cleanup, PENDING and
      rejected calls never call `onBookSlot`. */
  lemma {:induction false} NoSuccessNoCalls(p: Page, es: seq<Event>)
    requires Valid(p)
    requires forall i :: 0 <= i < |es| ==> !(es[i].Resolve? && es[i].result == Success)
    ensures Run(p, es).calls == []
    decreases |es|
  {
    if |es| > 0 {
      var s := Step(p, es[0]);
      StepPreservesValid(p, es[0]);
      NoSuccessNoCalls(s.page, es[1..]);
    }
  }

  /** Unfolds `Run` by one event. */
  lemma RunCons(p: Page, e: Event, rest: seq<Event>)
    requires Valid(p)
    ensures var s := Step(p, e);
      var t := Run(s.page, rest);
      Run(p, [e] + rest) == Trace(t.page, (if s.call.Some? then [s.call.value] else []) + t.calls)
  {
    assert ([e] + rest)[1..] == rest;
  }

  /** Running two event sequences one after the other is running their
      concatenation; the calls of the second follow those of the first. */
  lemma {:induction false} RunAppend(p: Page, a: seq<Event>, b: seq<Event>)
    requires Valid(p)
    ensures var first := Run(p, a);
      var second := Run(first.page, b);
      Run(p, a + b) == Trace(second.page, first.calls + second.calls)
    decreases |a|
  {
    if |a| == 0 {
      assert a + b == b;
    } else {
      var s := Step(p, a[0]);
      StepPreservesValid(p, a[0]);
      assert (a + b)[1..] == a[1..] + b;
      RunAppend(s.page, a[1..], b);
      var here := if s.call.Some? then [s.call.value] else [];
      var first := Run(s.page, a[1..]);
      var second := Run(first.page, b);
      assert here + (first.calls + second.calls) == (here + first.calls) + second.calls;
    }
  }

  /** Events that call nothing walk the page along a chain of pages. */
  lemma {:induction false} RunQuiet(ps: seq<Page>, es: seq<Event>)
    requires |ps| == |es| + 1 && Valid(ps[0])
    requires forall k :: 0 <= k < |es| ==> Step(ps[k], es[k]) == Stepped(ps[k + 1], None)
    ensures Run(ps[0], es) == Trace(ps[|es|], [])
    decreases |es|
  {
    if |es| > 0 {
      StepPreservesValid(ps[0], es[0]);
      RunQuiet(ps[1..], es[1..]);
    }
  }

  /** The null test on the ref lets a late answer through. The user selects
      slot `a`, its interval fires, the user closes the modal and selects
      slot `b`; when the call started for `a` then answers SUCCESS, the page
      books `a`, clears the interval polling for `b`, and confirms `a`. */
  lemma StaleAnswerBooksEarlierSlot(g: Game, h: Handler, a: Slot, b: Slot)
    requires a.status == Available && b.status == Available
    ensures var es := [SelectSlot(a), RunEffect, Fire(1), CloseModal, RunEffect, SelectSlot(b), RunEffect,
                       Resolve(0, Success)];
      var r := Run(Initial(g, h), es);
      && r.calls == [BookCall(g.id, a.id, h)]
      && r.page.confirmationSlot == Some(a)
      && r.page.live == {} && r.page.polling.None? && r.page.selected.None?
  {
    var setup := [SelectSlot(a), RunEffect, Fire(1), CloseModal, RunEffect, SelectSlot(b), RunEffect];
    var last := [Resolve(0, Success)];
    var p7 := SecondSelectionPolling(g, h, a, b);
    InitialValid(g, h);
    RunAppend(Initial(g, h), setup, last);
    var s8 := ResolveCall(p7, 0, Success);
    assert s8.call == Some(BookCall(g.id, a.id, h));
    RunCons(p7, Resolve(0, Success), []);
    assert last == [Resolve(0, Success)] + [];
    assert setup + last == [SelectSlot(a), RunEffect, Fire(1), CloseModal, RunEffect, SelectSlot(b), RunEffect,
                            Resolve(0, Success)];
  }

  /** The page of the scenario above just before the late answer: polling
      for `b` under interval 2 while the call interval 1 started for `a` is
      still in flight. */
  lemma SecondSelectionPolling(g: Game, h: Handler, a: Slot, b: Slot) returns (p7: Page)
    requires a.status == Available && b.status == Available
    ensures Valid(p7)
    ensures p7.polling == Some(2) && p7.live == {2} && p7.inflight == [1] && 1 in p7.timers
    ensures p7.timers[1] == Capture(g, a, h)
    ensures Valid(Initial(g, h))
    ensures Run(Initial(g, h), [SelectSlot(a), RunEffect, Fire(1), CloseModal, RunEffect, SelectSlot(b), RunEffect])
         == Trace(p7, [])
  {
    var es := [SelectSlot(a), RunEffect, Fire(1), CloseModal, RunEffect, SelectSlot(b), RunEffect];
    var p0 := Initial(g, h);
    InitialValid(g, h);
    var p1 := HandleSlotSelect(p0, a);
    var p2 := RunEffectBody(p1);
    var p3 := FireTimer(p2, 1);
    var p4 := HandleCloseModal(p3);
    var p5 := RunEffectBody(p4);
    var p6 := HandleSlotSelect(p5, b);
    p7 := RunEffectBody(p6);
    assert p2.live == {1} && p2.timers == map[1 := Capture(g, a, h)];
    assert p3.inflight == [1];
    assert p5 == p4;
    var ps := [p0, p1, p2, p3, p4, p5, p6, p7];
    forall k | 0 <= k < 7
      ensures Step(ps[k], es[k]) == Stepped(ps[k + 1], None)
    {
    }
    RunQuiet(ps, es);
    StepPreservesValid(p6, RunEffect);
  }
}

=== FILE: catalog.dfy ===
/** The catalog and ledger update that `handleBookSlot` performs once a
    payment is confirmed (App.tsx). The update is modelled as the code writes
    it: it does not look at the slot's current status, it marks every slot
    whose id matches inside every game whose id matches, and the appended
    record takes its title and time from the last match the scan met. */
module Catalog {
  import opened Types

  /** Slot `j` of game `i` is a slot the booking `(gameId, slotId)` targets. */
  ghost predicate SlotAt(games: seq<Game>, gameId: int, slotId: int, i: int, j: int) {
    && 0 <= i < |games|
    && games[i].id == gameId
    && 0 <= j < |games[i].slots|
    && games[i].slots[j].id == slotId
  }

  /** Some game with id `gameId` holds a slot with id `slotId`. */
  ghost predicate Found(games: seq<Game>, gameId: int, slotId: int) {
    exists i, j :: SlotAt(games, gameId, slotId, i, j)
  }

  /** The inner `game.slots.map(...)`: each slot with id `slotId` comes back
      with status booked, every other slot comes back as it was. */
  function MarkSlots(slots: seq<Slot>, slotId: int): (r: seq<Slot>)
    ensures |r| == |slots|
    ensures forall j :: 0 <= j < |slots| ==> r[j].id == slots[j].id && r[j].time == slots[j].time
    ensures forall j :: 0 <= j < |slots| ==>
      r[j].status == (if slots[j].id == slotId then Booked else slots[j].status)
  {
    if |slots| == 0 then []
    else
      var head := if slots[0].id == slotId then slots[0].(status := Booked) else slots[0];
      [head] + MarkSlots(slots[1..], slotId)
  }

  /** The outer `games.map(...)`: games with id `gameId` get their slots
      marked, every other game comes back as it was, and no field but
      `slots` ever changes. */
  function MarkGames(games: seq<Game>, gameId: int, slotId: int): (r: seq<Game>)
    ensures |r| == |games|
    ensures forall i :: 0 <= i < |games| ==> r[i] == games[i].(slots := r[i].slots)
    ensures forall i :: 0 <= i < |games| && games[i].id != gameId ==> r[i] == games[i]
    ensures forall i :: 0 <= i < |games| && games[i].id == gameId ==>
      r[i].slots == MarkSlots(games[i].slots, slotId)
  {
    if |games| == 0 then []
    else
      var head := if games[0].id == gameId then games[0].(slots := MarkSlots(games[0].slots, slotId)) else games[0];
      [head] + MarkGames(games[1..], gameId, slotId)
  }

  /** `games.find(g => g.id === gameId)`: the first game with that id. */
  function FirstGame(games: seq<Game>, gameId: int): (r: Option<Game>)
    ensures r.None? <==> forall i :: 0 <= i < |games| ==> games[i].id != gameId
    ensures r.Some? ==> exists i :: (0 <= i < |games| && games[i] == r.value && games[i].id == gameId
      && forall k :: 0 <= k < i ==> games[k].id != gameId)
  {
    if |games| == 0 then None
    else if games[0].id == gameId then Some(games[0])
    else
      var rest := FirstGame(games[1..], gameId);
      assert forall i :: 1 <= i < |games| ==> games[i] == games[1..][i - 1];
      rest
  }

  /** The value `bookedGame` is left holding: the last game with id `gameId`
      (its slots already marked when it comes from the marked catalog). */
  function LastGame(games: seq<Game>, gameId: int): (r: Option<Game>)
    ensures r.None? <==> forall i :: 0 <= i < |games| ==> games[i].id != gameId
    ensures r.Some? ==> exists i :: (0 <= i < |games| && games[i] == r.value && games[i].id == gameId
      && forall k :: i < k < |games| ==> games[k].id != gameId)
  {
    if |games| == 0 then None
    else if games[|games| - 1].id == gameId then Some(games[|games| - 1])
    else LastGame(games[..|games| - 1], gameId)
  }

  /** The last slot of one game with id `slotId`. */
  function LastSlotOf(slots: seq<Slot>, slotId: int): (r: Option<Slot>)
    ensures r.None? <==> forall j :: 0 <= j < |slots| ==> slots[j].id != slotId
    ensures r.Some? ==> exists j :: (0 <= j < |slots| && slots[j] == r.value && slots[j].id == slotId
      && forall k :: j < k < |slots| ==> slots[k].id != slotId)
  {
    if |slots| == 0 then None
    else if slots[|slots| - 1].id == slotId then Some(slots[|slots| - 1])
    else LastSlotOf(slots[..|slots| - 1], slotId)
  }

  /** The value `bookedSlot` is left holding: the last slot with id `slotId`
      met while scanning, in order, the games with id `gameId`. */
  function LastSlot(games: seq<Game>, gameId: int, slotId: int): (r: Option<Slot>)
    ensures r.Some? <==> Found(games, gameId, slotId)
    ensures r.Some? ==> r.value.id == slotId
    ensures r.Some? ==> exists i, j :: SlotAt(games, gameId, slotId, i, j) && games[i].slots[j] == r.value
  {
    if |games| == 0 then None
    else
      var n := |games| - 1;
      var front := games[..n];
      assert forall i, j :: SlotAt(front, gameId, slotId, i, j) <==> SlotAt(games, gameId, slotId, i, j) && i < n;
      if games[n].id == gameId && LastSlotOf(games[n].slots, slotId).Some? then
        var s := LastSlotOf(games[n].slots, slotId);
        assert exists j :: SlotAt(games, gameId, slotId, n, j) && games[n].slots[j] == s.value;
        s
      else
        assert forall j :: !SlotAt(games, gameId, slotId, n, j);
        LastSlot(front, gameId, slotId)
  }

  /** `s` is a targeted slot and no targeted slot lies in a later game, or
      later in the same game. */
  ghost predicate LastInScanOrder(games: seq<Game>, gameId: int, slotId: int, s: Slot) {
    exists i, j :: (SlotAt(games, gameId, slotId, i, j) && games[i].slots[j] == s
      && forall i', j' :: SlotAt(games, gameId, slotId, i', j') ==> i' < i || (i' == i && j' <= j))
  }

  /** The slot `LastSlot` returns is the last targeted one in scan order. */
  lemma {:induction false} LastSlotIsLastInScanOrder(games: seq<Game>, gameId: int, slotId: int)
    requires Found(games, gameId, slotId)
    ensures LastSlot(games, gameId, slotId).Some?
    ensures LastInScanOrder(games, gameId, slotId, LastSlot(games, gameId, slotId).value)
    decreases |games|
  {
    var n := |games| - 1;
    if games[n].id == gameId && LastSlotOf(games[n].slots, slotId).Some? {
      ScanOrderInLastGame(games, gameId, slotId);
    } else {
      var front := games[..n];
      assert forall i, j :: SlotAt(front, gameId, slotId, i, j) <==> SlotAt(games, gameId, slotId, i, j) && i < n;
      LastSlotIsLastInScanOrder(front, gameId, slotId);
      ScanOrderSkipsLastGame(games, gameId, slotId);
    }
  }

  /** When the last game holds the target, its last targeted slot is last. */
  lemma ScanOrderInLastGame(games: seq<Game>, gameId: int, slotId: int)
    requires |games| > 0
    requires games[|games| - 1].id == gameId && LastSlotOf(games[|games| - 1].slots, slotId).Some?
    ensures LastSlot(games, gameId, slotId) == LastSlotOf(games[|games| - 1].slots, slotId)
    ensures LastInScanOrder(games, gameId, slotId, LastSlot(games, gameId, slotId).value)
  {
    var n := |games| - 1;
    var s := LastSlotOf(games[n].slots, slotId);
    var j :| 0 <= j < |games[n].slots| && games[n].slots[j] == s.value && games[n].slots[j].id == slotId
      && forall k :: j < k < |games[n].slots| ==> games[n].slots[k].id != slotId;
    assert SlotAt(games, gameId, slotId, n, j);
    assert forall i', j' :: SlotAt(games, gameId, slotId, i', j') ==> i' < n || (i' == n && j' <= j);
  }

  /** When the last game does not hold the target, the order found in the
      games before it carries over. */
  lemma ScanOrderSkipsLastGame(games: seq<Game>, gameId: int, slotId: int)
    requires |games| > 0
    requires !(games[|games| - 1].id == gameId && LastSlotOf(games[|games| - 1].slots, slotId).Some?)
    requires var front := games[..|games| - 1];
      LastSlot(front, gameId, slotId).Some? && LastInScanOrder(front, gameId, slotId, LastSlot(front, gameId, slotId).value)
    ensures LastSlot(games, gameId, slotId) == LastSlot(games[..|games| - 1], gameId, slotId)
    ensures LastInScanOrder(games, gameId, slotId, LastSlot(games, gameId, slotId).value)
  {
    var n := |games| - 1;
    var front := games[..n];
    var i, j :| SlotAt(front, gameId, slotId, i, j) && front[i].slots[j] == LastSlot(front, gameId, slotId).value
      && forall i', j' :: SlotAt(front, gameId, slotId, i', j') ==> i' < i || (i' == i && j' <= j);
    assert SlotAt(games, gameId, slotId, i, j) && games[i] == front[i];
    forall i', j' | SlotAt(games, gameId, slotId, i', j')
      ensures i' < i || (i' == i && j' <= j)
    {
      if i' == n {
        assert false;
      }
      assert SlotAt(front, gameId, slotId, i', j');
    }
  }

  /** JavaScript's decimal rendering of a non-negative integer below
      10^21; larger numbers print in exponent form and are not modelled. */
  function NaturalText(n: nat): (r: string)
    ensures |r| >= 1 && AllDigits(r)
    ensures r[0] == '0' ==> n == 0
    decreases n
  {
    var digit := ['0' + (n % 10) as char];
    if n < 10 then digit else NaturalText(n / 10) + digit
  }

  /** The number a string of decimal digits denotes. */
  function DecimalValue(s: string): nat
    requires AllDigits(s)
    decreases |s|
  {
    if |s| == 0 then 0 else DecimalValue(s[..|s| - 1]) * 10 + (s[|s| - 1] - '0') as int
  }

  /** Reading the rendering back gives the number. */
  lemma {:induction false} NaturalTextValue(n: nat)
    ensures DecimalValue(NaturalText(n)) == n
    decreases n
  {
    var r := NaturalText(n);
    if n >= 10 {
      NaturalTextValue(n / 10);
      assert r[..|r| - 1] == NaturalText(n / 10);
    }
  }

  /** JavaScript's decimal rendering of an integer id whose magnitude is
      below 10^21: a minus sign exactly for a negative number, then digits. */
  function NumberText(n: int): (r: string)
    ensures |r| >= 1 && (r[0] == '-' <==> n < 0)
    ensures forall i :: 1 <= i < |r| ==> IsDigit(r[i])
  {
    if n < 0 then "-" + NaturalText(-n) else NaturalText(n)
  }

  /** Different numbers render differently. */
  lemma NaturalTextInjective(m: nat, n: nat)
    requires NaturalText(m) == NaturalText(n)
    ensures m == n
  {
    NaturalTextValue(m);
    NaturalTextValue(n);
  }

  /** Different ids render differently. */
  lemma NumberTextInjective(a: int, b: int)
    requires NumberText(a) == NumberText(b)
    ensures a == b
  {
    var t := NumberText(a);
    if a < 0 {
      assert b < 0;
      assert t[1..] == NaturalText(-a) && t[1..] == NaturalText(-b);
      NaturalTextInjective(-a, -b);
    } else {
      assert b >= 0;
      NaturalTextInjective(a, b);
    }
  }

  /** The record id `${timestamp}-${gameId}-${slotId}`: the clock reading,
      a dash, then the two ids. */
  function BookingId(now: string, gameId: int, slotId: int): (r: string)
    ensures |r| > |now| + 3 && r[..|now|] == now && r[|now|] == '-'
  {
    now + "-" + NumberText(gameId) + "-" + NumberText(slotId)
  }

  /** Under one clock reading the record id names its target: the first
      dash after the game id's own sign ends the game id. */
  lemma BookingIdDeterminesTarget(now: string, g1: int, s1: int, g2: int, s2: int)
    requires BookingId(now, g1, s1) == BookingId(now, g2, s2)
    ensures g1 == g2 && s1 == s2
  {
    var a1, b1, a2, b2 := NumberText(g1), NumberText(s1), NumberText(g2), NumberText(s2);
    var k := |now| + 1;
    assert BookingId(now, g1, s1)[k..] == a1 + "-" + b1;
    assert BookingId(now, g2, s2)[k..] == a2 + "-" + b2;
    SplitAtDash(a1, b1, a2, b2);
    NumberTextInjective(g1, g2);
    NumberTextInjective(s1, s2);
  }

  /** Two ids joined by a dash split back uniquely, since an id has no dash
      after its first character. */
  lemma SplitAtDash(a1: string, b1: string, a2: string, b2: string)
    requires |a1| >= 1 && forall i :: 1 <= i < |a1| ==> IsDigit(a1[i])
    requires |a2| >= 1 && forall i :: 1 <= i < |a2| ==> IsDigit(a2[i])
    requires a1 + "-" + b1 == a2 + "-" + b2
    ensures a1 == a2 && b1 == b2
  {
    var t := a1 + "-" + b1;
    assert t[|a1|] == '-' && (a2 + "-" + b2)[|a2|] == '-';
    assert a1 == t[..|a1|] && a2 == t[..|a2|];
    assert b1 == t[|a1| + 1..] && b2 == t[|a2| + 1..];
  }

  /** What `handleBookSlot` leaves behind: the new catalog, the record it
      created if it created one, the new history, and the game the page is
      re-pointed to, if any. */
  datatype BookOutcome = BookOutcome(games: seq<Game>, record: Option<Booking>, history: seq<Booking>, selected: Option<Game>)

  /** `handleBookSlot(gameId, slotId)` with the clock reading `now` and the
      configured payment amount `amount`. A record is created exactly when
      the target exists; it is appended after the earlier records, which are
      kept as they were. */
  function BookSlot(games: seq<Game>, history: seq<Booking>, gameId: int, slotId: int, now: string, amount: string): (r: BookOutcome)
    ensures r.games == MarkGames(games, gameId, slotId)
    ensures r.selected.Some? <==> exists i :: 0 <= i < |r.games| && r.games[i].id == gameId
    ensures r.selected.Some? ==> r.selected.value in r.games && r.selected.value.id == gameId
    ensures r.record.Some? <==> Found(games, gameId, slotId)
    ensures r.record.None? ==> r.history == history
    ensures r.record.Some? ==> r.history == history + [r.record.value]
    ensures r.record.Some? ==>
      && r.record.value.id == BookingId(now, gameId, slotId)
      && r.record.value.gameId == gameId
      && r.record.value.bookingDate == now
      && r.record.value.amount == amount
      && LastGame(r.games, gameId).Some? && r.record.value.gameTitle == LastGame(r.games, gameId).value.title
      && LastSlot(games, gameId, slotId).Some? && r.record.value.slotTime == LastSlot(games, gameId, slotId).value.time
  {
    var updated := MarkGames(games, gameId, slotId);
    var bookedGame := LastGame(updated, gameId);
    var bookedSlot := LastSlot(games, gameId, slotId);
    if bookedGame.Some? && bookedSlot.Some? then
      var record := Booking(BookingId(now, gameId, slotId), bookedGame.value.id, bookedGame.value.title,
                            bookedSlot.value.time, now, amount);
      BookOutcome(updated, Some(record), history + [record], FirstGame(updated, gameId))
    else
      BookOutcome(updated, None, history, FirstGame(updated, gameId))
  }

  /** The page is re-pointed to the first game with the id in the updated
      catalog, as `find` returns it. */
  lemma BookSlotReopensFirstCopy(games: seq<Game>, history: seq<Booking>, gameId: int, slotId: int, now: string, amount: string)
    ensures var r := BookSlot(games, history, gameId, slotId, now, amount);
      r.selected.Some? ==> exists i :: (0 <= i < |r.games| && r.games[i] == r.selected.value
        && forall k :: 0 <= k < i ==> r.games[k].id != gameId)
  {
  }

  /** The record describes the booked target: its title is that of a game
      with the id, and its time that of a slot the booking targets. */
  lemma RecordDescribesTarget(games: seq<Game>, history: seq<Booking>, gameId: int, slotId: int, now: string, amount: string)
    requires Found(games, gameId, slotId)
    ensures var rec := BookSlot(games, history, gameId, slotId, now, amount).record;
      && rec.Some?
      && (exists i :: 0 <= i < |games| && games[i].id == gameId && rec.value.gameTitle == games[i].title)
      && (exists i, j :: SlotAt(games, gameId, slotId, i, j) && rec.value.slotTime == games[i].slots[j].time)
  {
    var out := BookSlot(games, history, gameId, slotId, now, amount);
    var rec := out.record;
    var marked := out.games;
    var g := LastGame(marked, gameId).value;
    var i :| 0 <= i < |marked| && marked[i] == g && marked[i].id == gameId;
    assert marked[i] == games[i].(slots := marked[i].slots);
    assert rec.value.gameTitle == games[i].title;
    var s := LastSlot(games, gameId, slotId).value;
    var k, j :| SlotAt(games, gameId, slotId, k, j) && games[k].slots[j] == s;
    assert rec.value.slotTime == games[k].slots[j].time;
  }

  /** Every targeted slot ends up booked; every other slot of the catalog,
      and every other game, is left exactly as it was. */
  lemma BookSlotTargetsOnly(games: seq<Game>, history: seq<Booking>, gameId: int, slotId: int, now: string, amount: string)
    ensures var r := BookSlot(games, history, gameId, slotId, now, amount).games;
      && |r| == |games|
      && (forall i :: 0 <= i < |games| ==> |r[i].slots| == |games[i].slots|)
      && (forall i, j :: SlotAt(games, gameId, slotId, i, j) ==> r[i].slots[j] == games[i].slots[j].(status := Booked))
      && (forall i, j :: 0 <= i < |games| && 0 <= j < |games[i].slots| && !SlotAt(games, gameId, slotId, i, j) ==>
            r[i].slots[j] == games[i].slots[j])
  {
  }

  /** A slot that is booked stays booked: the update never releases a slot. */
  lemma BookedStaysBooked(games: seq<Game>, gameId: int, slotId: int, i: int, j: int)
    requires 0 <= i < |games| && 0 <= j < |games[i].slots|
    requires games[i].slots[j].status == Booked
    ensures MarkGames(games, gameId, slotId)[i].slots[j].status == Booked
  {
  }

  /** A slot list without the id comes back unchanged. */
  lemma MarkSlotsNoMatch(slots: seq<Slot>, slotId: int)
    requires forall j :: 0 <= j < |slots| ==> slots[j].id != slotId
    ensures MarkSlots(slots, slotId) == slots
  {
    var r := MarkSlots(slots, slotId);
    assert forall j :: 0 <= j < |slots| ==> r[j] == slots[j];
  }

  /** When nothing matches, the catalog comes back content-equal. */
  lemma NotFoundKeepsCatalog(games: seq<Game>, gameId: int, slotId: int)
    requires !Found(games, gameId, slotId)
    ensures MarkGames(games, gameId, slotId) == games
  {
    var r := MarkGames(games, gameId, slotId);
    forall i | 0 <= i < |games|
      ensures r[i] == games[i]
    {
      if games[i].id == gameId {
        forall j | 0 <= j < |games[i].slots|
          ensures games[i].slots[j].id != slotId
        {
          assert !SlotAt(games, gameId, slotId, i, j);
        }
        MarkSlotsNoMatch(games[i].slots, slotId);
      }
    }
  }

  /** Marking is idempotent: a second pass over the marked catalog changes nothing. */
  lemma MarkGamesIdempotent(games: seq<Game>, gameId: int, slotId: int)
    ensures MarkGames(MarkGames(games, gameId, slotId), gameId, slotId) == MarkGames(games, gameId, slotId)
  {
    var once := MarkGames(games, gameId, slotId);
    var twice := MarkGames(once, gameId, slotId);
    forall i | 0 <= i < |games|
      ensures twice[i] == once[i]
    {
      if games[i].id == gameId {
        assert twice[i].slots == once[i].slots;
      }
    }
  }

  /** Booking the same slot twice leaves the catalog as the first booking
      left it: marking is idempotent. */
  lemma RebookKeepsCatalog(games: seq<Game>, history: seq<Booking>, gameId: int, slotId: int, now: string, amount: string)
    ensures var first := BookSlot(games, history, gameId, slotId, now, amount);
      BookSlot(first.games, first.history, gameId, slotId, now, amount).games == first.games
  {
    MarkGamesIdempotent(games, gameId, slotId);
  }

  /** ... yet the history grows by a second record: the update performs no
      availability check. Two calls within the same clock reading produce
      records with the same id. */
  lemma RebookAppendsAgain(games: seq<Game>, history: seq<Booking>, gameId: int, slotId: int, now: string, amount: string)
    returns (first: BookOutcome, second: BookOutcome)
    requires Found(games, gameId, slotId)
    ensures first == BookSlot(games, history, gameId, slotId, now, amount)
    ensures second == BookSlot(first.games, first.history, gameId, slotId, now, amount)
    ensures first.record.Some? && second.record.Some?
    ensures second.history == history + [first.record.value, second.record.value]
    ensures first.record.value.id == second.record.value.id
  {
    FoundAfterMarking(games, gameId, slotId);
    first := BookSlot(games, history, gameId, slotId, now, amount);
    second := BookSlot(first.games, first.history, gameId, slotId, now, amount);
    AppendTwice(history, first.record.value, second.record.value);
  }

  lemma AppendTwice<T>(s: seq<T>, a: T, b: T)
    ensures (s + [a]) + [b] == s + [a, b]
  {
  }

  /** A target that exists still exists after marking. */
  lemma FoundAfterMarking(games: seq<Game>, gameId: int, slotId: int)
    requires Found(games, gameId, slotId)
    ensures Found(MarkGames(games, gameId, slotId), gameId, slotId)
  {
    var i, j :| SlotAt(games, gameId, slotId, i, j);
    assert SlotAt(MarkGames(games, gameId, slotId), gameId, slotId, i, j);
  }
}

=== FILE: flow.dfy ===
/** The booking flow end to end: the booking page driving the root's
    `handleBookSlot` (BookingPage.tsx calling into App.tsx). Each page event
    carries the clock reading the root would take if the event books. */
module Flow {
  import opened Types
  import Catalog
  import App
  import BookingPage

  /** The root with the booking page mounted beside it. */
  datatype System = System(app: App.AppState, page: BookingPage.Page)

  datatype Input = Input(event: BookingPage.Event, now: string)

  /** One page event. An `onBookSlot` call runs the handler instance the
      calling interval captured; the root then re-renders the page with its
      new `handleBookSlot` and, when it re-pointed the open game, with that
      game's updated copy. */
  function Step(s: System, i: Input, amount: string): (r: System)
    ensures BookingPage.Step(s.page, i.event).call.None? ==> r.app == s.app
    ensures var st := BookingPage.Step(s.page, i.event);
      st.call.Some? && st.call.value.onBookSlot == App.OnBookSlot(s.app) ==>
      |s.app.history| <= |r.app.history| && r.app.history[..|s.app.history|] == s.app.history
    ensures BookingPage.Step(s.page, i.event).call.Some? ==> r.page.onBookSlot == App.OnBookSlot(r.app)
  {
    var st := BookingPage.Step(s.page, i.event);
    match st.call
    case None => System(s.app, st.page)
    case Some(c) =>
      var a := App.BookSlot(s.app, c.onBookSlot, c.gameId, c.slotId, i.now, amount);
      var page := if a.selectedGame.Some? then st.page.(game := a.selectedGame.value) else st.page;
      System(a, page.(onBookSlot := App.OnBookSlot(a)))
  }

  /** A step that calls `onBookSlot` leaves the root as that handler
      instance's update makes it. */
  lemma StepRunsCall(s: System, i: Input, amount: string)
    requires BookingPage.Step(s.page, i.event).call.Some?
    ensures var c := BookingPage.Step(s.page, i.event).call.value;
      Step(s, i, amount).app == App.BookSlot(s.app, c.onBookSlot, c.gameId, c.slotId, i.now, amount)
  {
  }

  /** Re-rendering after a call changes only the page's props: its intervals,
      ref and pending calls are as the page event left them. */
  lemma StepKeepsPageRuntime(s: System, i: Input, amount: string)
    ensures var p := BookingPage.Step(s.page, i.event).page; var r := Step(s, i, amount).page;
      r.inflight == p.inflight && r.timers == p.timers && r.nextTimer == p.nextTimer && r.polling == p.polling
  {
  }

  function Run(s: System, inputs: seq<Input>, amount: string): System
    decreases |inputs|
  {
    if |inputs| == 0 then s else Run(Step(s, inputs[0], amount), inputs[1..], amount)
  }

  /** An input the running application can deliver in order: new props come
      from this root, and a live interval fires only once no verification
      call is awaiting its answer. The verifier answers after 1.5 seconds
      and an interval fires 3 seconds after it was started or last fired,
      so with timers firing on time every call is answered before the next
      one starts. */
  predicate InOrder(s: System, i: Input) {
    && (i.event.NewProps? ==> i.event.onBookSlot == App.OnBookSlot(s.app))
    && (i.event.Fire? && i.event.timer in s.page.live ==> s.page.inflight == [])
  }

  /** Every input of the run is in order when it arrives. */
  predicate Serial(s: System, inputs: seq<Input>, amount: string)
    decreases |inputs|
  {
    |inputs| == 0 || (InOrder(s, inputs[0]) && Serial(Step(s, inputs[0], amount), inputs[1..], amount))
  }

  /** The page renders with the root's current handler, every running
      interval and every call in flight captured that same handler, and at
      most one call is in flight. */
  ghost predicate Coherent(s: System) {
    && BookingPage.Valid(s.page)
    && s.page.onBookSlot == App.OnBookSlot(s.app)
    && (forall t :: t in s.page.live ==> s.page.timers[t].onBookSlot == App.OnBookSlot(s.app))
    && (forall k :: 0 <= k < |s.page.inflight| ==> s.page.timers[s.page.inflight[k]].onBookSlot == App.OnBookSlot(s.app))
    && |s.page.inflight| <= 1
  }

  /** A page first rendered by the root, beside it, is coherent. */
  lemma MountCoherent(app: App.AppState, g: Game)
    ensures Coherent(System(app, BookingPage.Initial(g, App.OnBookSlot(app))))
  {
  }

  /** An in-order input keeps the system coherent, and any call it makes
      runs the root's current handler. */
  lemma StepKeepsCoherent(s: System, i: Input, amount: string)
    requires Coherent(s) && InOrder(s, i)
    ensures var st := BookingPage.Step(s.page, i.event);
      st.call.Some? ==> st.call.value.onBookSlot == App.OnBookSlot(s.app)
    ensures Coherent(Step(s, i, amount))
  {
    var st := BookingPage.Step(s.page, i.event);
    BookingPage.StepPreservesValid(s.page, i.event);
    if st.call.Some? {
      BookingLeavesPageIdle(s, i.event);
    } else {
      QuietStepKeepsCoherent(s, i);
    }
  }

  /** A booking call is made by the one call in flight, which captured the
      current handler; afterwards no interval runs and no call is pending. */
  lemma BookingLeavesPageIdle(s: System, e: BookingPage.Event)
    requires Coherent(s)
    requires BookingPage.Step(s.page, e).call.Some?
    ensures var st := BookingPage.Step(s.page, e);
      && st.call.value.onBookSlot == App.OnBookSlot(s.app)
      && st.page.live == {} && st.page.inflight == []
  {
    assert s.page.live == BookingPage.RefSet(s.page.polling);
  }

  /** An in-order input that calls nothing keeps the system coherent. */
  lemma QuietStepKeepsCoherent(s: System, i: Input)
    requires Coherent(s) && InOrder(s, i)
    requires BookingPage.Step(s.page, i.event).call.None?
    ensures Coherent(System(s.app, BookingPage.Step(s.page, i.event).page))
  {
    if i.event.Resolve? {
      QuietAnswerKeepsCoherent(s, i.event.call, i.event.result);
    } else if i.event.RunEffect? {
      EffectKeepsCoherent(s);
    } else if i.event.Fire? {
      FireKeepsCoherent(s, i.event.timer);
    } else {
      FormEventKeepsCoherent(s, i.event);
    }
  }

  /** Selecting, closing, cleanup, confirmation and new props from this
      root start nothing and capture nothing. */
  lemma FormEventKeepsCoherent(s: System, e: BookingPage.Event)
    requires Coherent(s)
    requires !e.Resolve? && !e.RunEffect? && !e.Fire?
    requires e.NewProps? ==> e.onBookSlot == App.OnBookSlot(s.app)
    ensures Coherent(System(s.app, BookingPage.Step(s.page, e).page))
  {
    BookingPage.StepPreservesValid(s.page, e);
    var r := BookingPage.Step(s.page, e).page;
    assert r.timers == s.page.timers && r.inflight == s.page.inflight && r.live <= s.page.live;
  }

  /** A live interval fires only with no call in flight, so the one call
      it starts is the only one, and it captured the current handler. */
  lemma FireKeepsCoherent(s: System, t: nat)
    requires Coherent(s)
    requires t in s.page.live ==> s.page.inflight == []
    ensures Coherent(System(s.app, BookingPage.FireTimer(s.page, t)))
  {
    BookingPage.StepPreservesValid(s.page, BookingPage.Fire(t));
  }

  /** An answer that books nothing only retires a call. */
  lemma QuietAnswerKeepsCoherent(s: System, k: nat, v: BookingPage.Verification)
    requires Coherent(s)
    requires BookingPage.ResolveCall(s.page, k, v).call.None?
    ensures Coherent(System(s.app, BookingPage.ResolveCall(s.page, k, v).page))
  {
    var r := BookingPage.ResolveCall(s.page, k, v).page;
    BookingPage.StepPreservesValid(s.page, BookingPage.Resolve(k, v));
    assert forall m :: 0 <= m < |r.inflight| ==> r.inflight[m] == s.page.inflight[m];
  }

  /** The effect's new interval captures the handler the page renders with. */
  lemma EffectKeepsCoherent(s: System)
    requires Coherent(s)
    ensures Coherent(System(s.app, BookingPage.RunEffectBody(s.page)))
  {
    BookingPage.StepPreservesValid(s.page, BookingPage.RunEffect);
    var r := BookingPage.RunEffectBody(s.page);
    assert forall t :: t in r.live ==> t in s.page.live || t == s.page.nextTimer;
  }

  /** The ledger is append-only over a coherent system driven in order:
      the earlier history is a prefix of the later one. */
  lemma {:induction false} LedgerOnlyGrows(s: System, inputs: seq<Input>, amount: string)
    requires Coherent(s) && Serial(s, inputs, amount)
    ensures |s.app.history| <= |Run(s, inputs, amount).app.history|
    ensures Run(s, inputs, amount).app.history[..|s.app.history|] == s.app.history
    decreases |inputs|
  {
    if |inputs| > 0 {
      var s1 := Step(s, inputs[0], amount);
      assert InOrder(s, inputs[0]) && Serial(s1, inputs[1..], amount);
      StepKeepsCoherent(s, inputs[0], amount);
      LedgerOnlyGrows(s1, inputs[1..], amount);
      PrefixOfPrefix(s.app.history, s1.app.history, Run(s1, inputs[1..], amount).app.history);
    }
  }

  lemma PrefixOfPrefix(a: seq<Booking>, b: seq<Booking>, c: seq<Booking>)
    requires |a| <= |b| && b[..|a|] == a
    requires |b| <= |c| && c[..|b|] == b
    ensures |a| <= |c| && c[..|a|] == a
  {
    assert c[..|a|] == c[..|b|][..|a|];
  }

  /** An answer other than SUCCESS never reaches the root: with no SUCCESS
      among the events, catalog, history and storage are as they were. In
      particular closing the modal before a SUCCESS answer leaves no trace. */
  lemma {:induction false} NoSuccessNoChange(s: System, inputs: seq<Input>, amount: string)
    requires forall i :: 0 <= i < |inputs| ==> !(inputs[i].event.Resolve? && inputs[i].event.result == BookingPage.Success)
    ensures Run(s, inputs, amount).app == s.app
    decreases |inputs|
  {
    if |inputs| > 0 {
      NoSuccessNoChange(Step(s, inputs[0], amount), inputs[1..], amount);
    }
  }

  /** A slot the catalog shows as booked is never shown as available again,
      over a coherent system driven in order. */
  lemma {:induction false} BookedStaysBooked(s: System, inputs: seq<Input>, amount: string, i: int, j: int)
    requires Coherent(s) && Serial(s, inputs, amount)
    requires 0 <= i < |s.app.games| && 0 <= j < |s.app.games[i].slots|
    requires s.app.games[i].slots[j].status == Booked
    ensures var g := Run(s, inputs, amount).app.games;
      i < |g| && j < |g[i].slots| && g[i].slots[j].status == Booked
    decreases |inputs|
  {
    if |inputs| > 0 {
      var s1 := Step(s, inputs[0], amount);
      var st := BookingPage.Step(s.page, inputs[0].event);
      StepKeepsCoherent(s, inputs[0], amount);
      if st.call.Some? {
        Catalog.BookedStaysBooked(s.app.games, st.call.value.gameId, st.call.value.slotId, i, j);
      }
      BookedStaysBooked(s1, inputs[1..], amount, i, j);
    }
  }

  /** Unfolds `Run` by one input. */
  lemma RunCons(s: System, i: Input, rest: seq<Input>, amount: string)
    ensures Run(s, [i] + rest, amount) == Run(Step(s, i, amount), rest, amount)
  {
    assert ([i] + rest)[1..] == rest;
  }

  /** The inputs of a payment on `slot` whose verification answers PENDING
      twice, then `last`. */
  function TwoPendingThen(slot: Slot, last: BookingPage.Event, now: string): seq<Input> {
    [Input(BookingPage.SelectSlot(slot), now), Input(BookingPage.RunEffect, now),
     Input(BookingPage.Fire(1), now), Input(BookingPage.Resolve(0, BookingPage.Pending), now),
     Input(BookingPage.Fire(1), now), Input(BookingPage.Resolve(0, BookingPage.Pending), now),
     Input(BookingPage.Fire(1), now), Input(last, now)]
  }

  /** Running two input sequences one after the other is running their
      concatenation. */
  lemma {:induction false} RunAppend(s: System, a: seq<Input>, b: seq<Input>, amount: string)
    ensures Run(s, a + b, amount) == Run(Run(s, a, amount), b, amount)
    decreases |a|
  {
    if |a| == 0 {
      assert a + b == b;
    } else {
      assert (a + b)[1..] == a[1..] + b;
      RunAppend(Step(s, a[0], amount), a[1..], b, amount);
    }
  }

  /** Running the first `n + 1` inputs is running the first `n` and then
      stepping input `n`. */
  lemma {:induction false} RunOneMore(s: System, ins: seq<Input>, n: nat, amount: string)
    requires n < |ins|
    ensures Run(s, ins[..n + 1], amount) == Step(Run(s, ins[..n], amount), ins[n], amount)
  {
    var front, x := ins[..n], ins[n];
    assert front + [x] == ins[..n + 1];
    RunAppend(s, front, [x], amount);
    RunSingle(Run(s, front, amount), x, amount);
  }

  /** Running one input is stepping it. */
  lemma {:induction false} RunSingle(t: System, x: Input, amount: string)
    ensures Run(t, [x], amount) == Step(t, x, amount)
  {
    assert [x][1..] == [];
  }

  /** Inputs whose page events call nothing leave the root as it was and
      walk the page along a chain of pages. */
  lemma {:induction false} RunQuiet(app: App.AppState, ps: seq<BookingPage.Page>, ins: seq<Input>, amount: string)
    requires |ps| == |ins| + 1
    requires forall k :: 0 <= k < |ins| ==> BookingPage.Step(ps[k], ins[k].event) == BookingPage.Stepped(ps[k + 1], None)
    ensures Run(System(app, ps[0]), ins, amount) == System(app, ps[|ins|])
    decreases |ins|
  {
    if |ins| > 0 {
      RunQuiet(app, ps[1..], ins[1..], amount);
    }
  }

  /** The page after selecting `slot` and two PENDING answers, with the
      interval still polling and one more call in flight. */
  lemma PendingTwice(g: Game, slot: Slot, app: App.AppState, last: BookingPage.Event, now: string, amount: string)
    returns (p7: BookingPage.Page)
    requires slot.status == Available
    ensures Run(System(app, BookingPage.Initial(g, App.OnBookSlot(app))), TwoPendingThen(slot, last, now), amount)
         == Run(System(app, p7), [Input(last, now)], amount)
    ensures p7 == BookingPage.Initial(g, App.OnBookSlot(app)).(selected := Some(slot), verifying := true,
                   polling := Some(1), live := {1}, inflight := [1], nextTimer := 2,
                   timers := map[1 := BookingPage.Capture(g, slot, App.OnBookSlot(app))])
  {
    var p0 := BookingPage.Initial(g, App.OnBookSlot(app));
    var p1 := BookingPage.HandleSlotSelect(p0, slot);
    var p2 := BookingPage.RunEffectBody(p1);
    var p3 := BookingPage.FireTimer(p2, 1);
    var p4 := BookingPage.ResolveCall(p3, 0, BookingPage.Pending).page;
    var p5 := BookingPage.FireTimer(p4, 1);
    var p6 := BookingPage.ResolveCall(p5, 0, BookingPage.Pending).page;
    p7 := BookingPage.FireTimer(p6, 1);
    assert p2.live == {1};
    assert p3.inflight == [1];
    assert p4.inflight == [] && p4.live == {1};
    assert p6 == p4;
    var ins := TwoPendingThen(slot, last, now);
    var prefix := ins[..7];
    var ps := [p0, p1, p2, p3, p4, p5, p6, p7];
    forall k | 0 <= k < 7
      ensures BookingPage.Step(ps[k], prefix[k].event) == BookingPage.Stepped(ps[k + 1], None)
    {
    }
    RunQuiet(app, ps, prefix, amount);
    assert ins == prefix + [Input(last, now)];
    RunAppend(System(app, p0), prefix, [Input(last, now)], amount);
  }

  /** A payment answered PENDING twice and then SUCCESS books the slot: the
      catalog shows it booked, the history ends in its record, and the page
      shows the confirmation with polling stopped. */
  lemma PaymentAfterTwoPendingBooks(g: Game, slot: Slot, app: App.AppState, now: string, amount: string)
    requires g.slots == [slot] && slot.status == Available
    requires app.games == [g] && app.selectedGame == Some(g)
    ensures var r := Run(System(app, BookingPage.Initial(g, App.OnBookSlot(app))),
                         TwoPendingThen(slot, BookingPage.Resolve(0, BookingPage.Success), now), amount);
      var booked := g.(slots := [slot.(status := Booked)]);
      && r.app.games == [booked]
      && r.app.history == app.history + [Booking(Catalog.BookingId(now, g.id, slot.id), g.id, g.title, slot.time, now, amount)]
      && r.app.storage == Some(App.Persist(r.app.history))
      && r.page.game == booked
      && r.page.showConfirmation && r.page.confirmationSlot == Some(slot)
      && r.page.polling.None? && r.page.live == {}
  {
    var success := BookingPage.Resolve(0, BookingPage.Success);
    var p7 := PendingTwice(g, slot, app, success, now, amount);
    var st := BookingPage.Step(p7, success);
    assert st.call == Some(BookingPage.BookCall(g.id, slot.id, App.OnBookSlot(app)));
    var booked := g.(slots := [slot.(status := Booked)]);
    assert Catalog.MarkSlots(g.slots, slot.id) == [slot.(status := Booked)];
    assert Catalog.MarkGames([g], g.id, slot.id) == [booked];
    assert Catalog.SlotAt(app.games, g.id, slot.id, 0, 0);
    var out := Catalog.BookSlot(app.games, app.history, g.id, slot.id, now, amount);
    assert Catalog.LastGame([booked], g.id) == Some(booked);
    assert Catalog.LastSlot([g], g.id, slot.id) == Some(slot);
    assert out.record == Some(Booking(Catalog.BookingId(now, g.id, slot.id), g.id, g.title, slot.time, now, amount));
    RunCons(System(app, p7), Input(success, now), [], amount);
  }

  /** A payment answered PENDING twice and then cancelled leaves catalog,
      history and storage as they were, and the page idle with no interval
      running. */
  lemma CancelAfterTwoPendingLeavesNoTrace(g: Game, slot: Slot, app: App.AppState, now: string, amount: string)
    requires slot.status == Available
    ensures var r := Run(System(app, BookingPage.Initial(g, App.OnBookSlot(app))),
                         TwoPendingThen(slot, BookingPage.CloseModal, now), amount);
      && r.app == app
      && r.page.selected.None? && !r.page.verifying && r.page.polling.None? && r.page.live == {}
  {
    var ins := TwoPendingThen(slot, BookingPage.CloseModal, now);
    NoSuccessNoChange(System(app, BookingPage.Initial(g, App.OnBookSlot(app))), ins, amount);
    var p7 := PendingTwice(g, slot, app, BookingPage.CloseModal, now, amount);
    RunCons(System(app, p7), Input(BookingPage.CloseModal, now), [], amount);
  }

  /** The inputs of two payments whose verification calls overlap: slot `a`
      is selected and its interval fires, the modal is closed, slot `b` is
      selected and its interval fires while the call for `a` is still
      awaiting its answer; `b`'s call answers SUCCESS, `a` is selected
      again, and then the old call for `a` answers SUCCESS. */
  function OverlappingPayments(a: Slot, b: Slot, now: string): seq<Input> {
    [Input(BookingPage.SelectSlot(a), now), Input(BookingPage.RunEffect, now), Input(BookingPage.Fire(1), now),
     Input(BookingPage.CloseModal, now), Input(BookingPage.SelectSlot(b), now), Input(BookingPage.RunEffect, now),
     Input(BookingPage.Fire(2), now), Input(BookingPage.Resolve(1, BookingPage.Success), now),
     Input(BookingPage.SelectSlot(a), now), Input(BookingPage.RunEffect, now),
     Input(BookingPage.Resolve(0, BookingPage.Success), now)]
  }

  /** Overlapping calls roll a booking back. The call for `b` books `b`;
      the later call for `a` runs the handler instance captured before that
      booking, so the catalog shows `b` available again and the history
      loses `b`'s record. */
  lemma OverlappingCallsRollBack(g: Game, a: Slot, b: Slot, app: App.AppState, now: string, amount: string)
    requires g.slots == [a, b] && a.id != b.id && a.status == Available && b.status == Available
    requires app.games == [g] && app.selectedGame == Some(g)
    ensures var ins := OverlappingPayments(a, b, now);
      var s0 := System(app, BookingPage.Initial(g, App.OnBookSlot(app)));
      var mid := Run(s0, ins[..8], amount);
      var r := Run(s0, ins, amount);
      && mid.app.games == [g.(slots := [a, b.(status := Booked)])]
      && mid.app.history == app.history + [Booking(Catalog.BookingId(now, g.id, b.id), g.id, g.title, b.time, now, amount)]
      && r.app.games == [g.(slots := [a.(status := Booked), b])]
      && r.app.history == app.history + [Booking(Catalog.BookingId(now, g.id, a.id), g.id, g.title, a.time, now, amount)]
  {
    var ins := OverlappingPayments(a, b, now);
    var h0 := App.OnBookSlot(app);
    var s0 := System(app, BookingPage.Initial(g, h0));
    var mid := OverlapFirstBooking(g, a, b, app, now, amount);
    var r := BookLateAnswer(g, a, b, h0, mid, now, amount);
    RunAppend(s0, ins[..8], ins[8..], amount);
    assert ins[..8] + ins[8..] == ins;
  }

  /** The state of the run above once `b` is booked through the handler
      `h0` the page was first rendered with: the call for `a` that captured
      `h0` is still in flight and no interval is polling. */
  ghost predicate AfterFirstBooking(mid: System, g: Game, a: Slot, b: Slot, h0: Handler, now: string, amount: string) {
    && mid.app.games == [g.(slots := [a, b.(status := Booked)])]
    && mid.app.history == h0.history + [Booking(Catalog.BookingId(now, g.id, b.id), g.id, g.title, b.time, now, amount)]
    && mid.page.inflight == [1] && mid.page.nextTimer == 3 && mid.page.polling.None?
    && mid.page.timers == map[1 := BookingPage.Capture(g, a, h0), 2 := BookingPage.Capture(g, b, h0)]
  }

  /** The first eight inputs of the run above: both calls are started and
      the one for `b` books `b`; the call for `a` is still in flight. */
  lemma OverlapFirstBooking(g: Game, a: Slot, b: Slot, app: App.AppState, now: string, amount: string)
    returns (mid: System)
    requires g.slots == [a, b] && a.id != b.id && a.status == Available && b.status == Available
    requires app.games == [g] && app.selectedGame == Some(g)
    ensures mid == Run(System(app, BookingPage.Initial(g, App.OnBookSlot(app))), OverlappingPayments(a, b, now)[..8], amount)
    ensures AfterFirstBooking(mid, g, a, b, App.OnBookSlot(app), now, amount)
  {
    var ins := OverlappingPayments(a, b, now);
    mid := BookFirstAnswer(g, a, b, app, now, amount);
    RunOneMore(System(app, BookingPage.Initial(g, App.OnBookSlot(app))), ins, 7, amount);
  }

  /** The run above is not in order: interval 2 fires while the call for
      `a` is in flight. */
  lemma OverlappingRunNotSerial(g: Game, a: Slot, b: Slot, app: App.AppState, now: string, amount: string)
    requires a.status == Available && b.status == Available
    ensures !Serial(System(app, BookingPage.Initial(g, App.OnBookSlot(app))), OverlappingPayments(a, b, now), amount)
  {
    var p7 := OverlapSetup(g, a, b, app, now, amount);
    SetupNotSerial(System(app, BookingPage.Initial(g, App.OnBookSlot(app))), OverlappingPayments(a, b, now), 6, amount);
  }

  /** The first seven inputs call nothing: two intervals were started and
      both have a call in flight. */
  lemma OverlapSetup(g: Game, a: Slot, b: Slot, app: App.AppState, now: string, amount: string)
    returns (p7: BookingPage.Page)
    requires a.status == Available && b.status == Available
    ensures var h0 := App.OnBookSlot(app);
      && Run(System(app, BookingPage.Initial(g, h0)), OverlappingPayments(a, b, now)[..7], amount) == System(app, p7)
      && (var p6 := Run(System(app, BookingPage.Initial(g, h0)), OverlappingPayments(a, b, now)[..6], amount).page;
          p6.inflight == [1] && p6.live == {2})
      && p7 == BookingPage.Initial(g, h0).(selected := Some(b), verifying := true, polling := Some(2), live := {2},
                 inflight := [1, 2], nextTimer := 3,
                 timers := map[1 := BookingPage.Capture(g, a, h0), 2 := BookingPage.Capture(g, b, h0)])
  {
    var h0 := App.OnBookSlot(app);
    var p0 := BookingPage.Initial(g, h0);
    var p1 := BookingPage.HandleSlotSelect(p0, a);
    var p2 := BookingPage.RunEffectBody(p1);
    var p3 := BookingPage.FireTimer(p2, 1);
    var p4 := BookingPage.HandleCloseModal(p3);
    var p5 := BookingPage.HandleSlotSelect(p4, b);
    var p6 := BookingPage.RunEffectBody(p5);
    p7 := BookingPage.FireTimer(p6, 2);
    assert p2.live == {1} && p3.inflight == [1] && p4.live == {};
    assert p6.live == {2};
    var prefix := OverlappingPayments(a, b, now)[..7];
    var ps := [p0, p1, p2, p3, p4, p5, p6, p7];
    forall k | 0 <= k < 7
      ensures BookingPage.Step(ps[k], prefix[k].event) == BookingPage.Stepped(ps[k + 1], None)
    {
    }
    RunQuiet(app, ps, prefix, amount);
    RunQuiet(app, ps[..7], prefix[..6], amount);
    assert prefix[..6] == OverlappingPayments(a, b, now)[..6];
  }

  /** The answer to the call for `b` books `b` through the current handler. */
  lemma BookFirstAnswer(g: Game, a: Slot, b: Slot, app: App.AppState, now: string, amount: string)
    returns (mid: System)
    requires g.slots == [a, b] && a.id != b.id && a.status == Available && b.status == Available
    requires app.games == [g] && app.selectedGame == Some(g)
    ensures var ins := OverlappingPayments(a, b, now);
      mid == Step(Run(System(app, BookingPage.Initial(g, App.OnBookSlot(app))), ins[..7], amount), ins[7], amount)
    ensures AfterFirstBooking(mid, g, a, b, App.OnBookSlot(app), now, amount)
  {
    var p7 := OverlapSetup(g, a, b, app, now, amount);
    var i7 := Input(BookingPage.Resolve(1, BookingPage.Success), now);
    assert OverlappingPayments(a, b, now)[7] == i7;
    mid := Step(System(app, p7), i7, amount);
    FirstAnswerPage(g, a, b, app, p7, now, amount);
    FirstAnswerApp(g, a, b, app, p7, now, amount);
  }

  /** The page `OverlapSetup` reaches: `b` selected and polling on
      interval 2, calls 1 (for `a`) and 2 (for `b`) in flight. */
  ghost predicate SetupPage(p7: BookingPage.Page, g: Game, a: Slot, b: Slot, h0: Handler) {
    p7 == BookingPage.Initial(g, h0).(selected := Some(b), verifying := true, polling := Some(2), live := {2},
            inflight := [1, 2], nextTimer := 3,
            timers := map[1 := BookingPage.Capture(g, a, h0), 2 := BookingPage.Capture(g, b, h0)])
  }

  /** Answering call 2 stops polling and leaves call 1 in flight. */
  lemma FirstAnswerPage(g: Game, a: Slot, b: Slot, app: App.AppState, p7: BookingPage.Page, now: string, amount: string)
    requires SetupPage(p7, g, a, b, App.OnBookSlot(app))
    ensures var m := Step(System(app, p7), Input(BookingPage.Resolve(1, BookingPage.Success), now), amount).page;
      && m.inflight == [1] && m.nextTimer == 3 && m.polling.None?
      && m.timers == map[1 := BookingPage.Capture(g, a, App.OnBookSlot(app)), 2 := BookingPage.Capture(g, b, App.OnBookSlot(app))]
  {
    var i7 := Input(BookingPage.Resolve(1, BookingPage.Success), now);
    var st := BookingPage.ResolveCall(p7, 1, BookingPage.Success);
    assert st.page.inflight == [1] && st.page.nextTimer == 3 && st.page.polling.None? && st.page.timers == p7.timers;
    assert BookingPage.Step(p7, i7.event) == st;
    StepKeepsPageRuntime(System(app, p7), i7, amount);
  }

  /** Answering call 2 books `b` through the handler the root rendered
      with. */
  lemma FirstAnswerApp(g: Game, a: Slot, b: Slot, app: App.AppState, p7: BookingPage.Page, now: string, amount: string)
    requires g.slots == [a, b] && a.id != b.id && app.games == [g]
    requires SetupPage(p7, g, a, b, App.OnBookSlot(app))
    ensures var m := Step(System(app, p7), Input(BookingPage.Resolve(1, BookingPage.Success), now), amount).app;
      && m.games == [g.(slots := [a, b.(status := Booked)])]
      && m.history == app.history + [Booking(Catalog.BookingId(now, g.id, b.id), g.id, g.title, b.time, now, amount)]
  {
    var h0 := App.OnBookSlot(app);
    var i7 := Input(BookingPage.Resolve(1, BookingPage.Success), now);
    assert BookingPage.Step(p7, i7.event).call == Some(BookingPage.BookCall(g.id, b.id, h0));
    StepRunsCall(System(app, p7), i7, amount);
    HandlerBooksOneOfTwo(app, h0, g, 1, now, amount);
    assert g.slots[1 := b.(status := Booked)] == [a, b.(status := Booked)];
  }

  /** Selecting `a` again starts interval 3, and the old call for `a` then
      answers SUCCESS: it runs the handler `h0` captured before `b` was
      booked, which rebuilds catalog and history from `h0`'s snapshot. */
  lemma BookLateAnswer(g: Game, a: Slot, b: Slot, h0: Handler, mid: System, now: string, amount: string)
    returns (r: System)
    requires g.slots == [a, b] && a.id != b.id && a.status == Available
    requires h0.games == [g]
    requires AfterFirstBooking(mid, g, a, b, h0, now, amount)
    ensures r == Run(mid, OverlappingPayments(a, b, now)[8..], amount)
    ensures r.app.games == [g.(slots := [a.(status := Booked), b])]
    ensures r.app.history == h0.history + [Booking(Catalog.BookingId(now, g.id, a.id), g.id, g.title, a.time, now, amount)]
  {
    var rest := OverlappingPayments(a, b, now)[8..];
    var p8 := BookingPage.HandleSlotSelect(mid.page, a);
    var p9 := BookingPage.RunEffectBody(p8);
    assert p9.polling == Some(3) && p9.inflight == [1] && p9.timers[1] == mid.page.timers[1];
    var quiet := rest[..2];
    RunQuiet(mid.app, [mid.page, p8, p9], quiet, amount);
    var last := Input(BookingPage.Resolve(0, BookingPage.Success), now);
    r := LateStep(g, a, b, h0, mid.app, p9, now, amount);
    RunCons(System(mid.app, p9), last, [], amount);
    RunAppend(mid, quiet, [last], amount);
    assert quiet + [last] == rest;
  }

  /** The step that answers the old call for `a`. */
  lemma LateStep(g: Game, a: Slot, b: Slot, h0: Handler, app: App.AppState, p9: BookingPage.Page, now: string, amount: string)
    returns (r: System)
    requires g.slots == [a, b] && a.id != b.id && a.status == Available
    requires h0.games == [g]
    requires p9.polling.Some? && p9.inflight == [1] && 1 in p9.timers && p9.timers[1] == BookingPage.Capture(g, a, h0)
    ensures r == Step(System(app, p9), Input(BookingPage.Resolve(0, BookingPage.Success), now), amount)
    ensures r.app.games == [g.(slots := [a.(status := Booked), b])]
    ensures r.app.history == h0.history + [Booking(Catalog.BookingId(now, g.id, a.id), g.id, g.title, a.time, now, amount)]
  {
    r := Step(System(app, p9), Input(BookingPage.Resolve(0, BookingPage.Success), now), amount);
    var st := BookingPage.ResolveCall(p9, 0, BookingPage.Success);
    assert st.call == Some(BookingPage.BookCall(g.id, a.id, h0));
    StepRunsCall(System(app, p9), Input(BookingPage.Resolve(0, BookingPage.Success), now), amount);
    HandlerBooksOneOfTwo(app, h0, g, 0, now, amount);
    assert g.slots[0 := a.(status := Booked)] == [a.(status := Booked), b];
  }

  /** A handler instance closed over a one-game, two-slot catalog books
      one of the two slots: the root takes the marked catalog and the
      instance's history plus the record. */
  lemma HandlerBooksOneOfTwo(app: App.AppState, h: Handler, g: Game, k: nat, now: string, amount: string)
    requires h.games == [g] && |g.slots| == 2 && g.slots[0].id != g.slots[1].id && k < 2
    ensures var r := App.BookSlot(app, h, g.id, g.slots[k].id, now, amount);
      && r.games == [g.(slots := g.slots[k := g.slots[k].(status := Booked)])]
      && r.history == h.history + [Booking(Catalog.BookingId(now, g.id, g.slots[k].id), g.id, g.title, g.slots[k].time, now, amount)]
  {
    BookOneOfTwo(g, h.history, k, now, amount);
  }

  /** Booking one of the two slots of a one-game catalog. */
  lemma BookOneOfTwo(g: Game, history: seq<Booking>, k: nat, now: string, amount: string)
    requires |g.slots| == 2 && g.slots[0].id != g.slots[1].id && k < 2
    ensures var out := Catalog.BookSlot([g], history, g.id, g.slots[k].id, now, amount);
      var rec := Booking(Catalog.BookingId(now, g.id, g.slots[k].id), g.id, g.title, g.slots[k].time, now, amount);
      && out.games == [g.(slots := g.slots[k := g.slots[k].(status := Booked)])]
      && out.record == Some(rec) && out.history == history + [rec]
  {
    var x := g.slots[k];
    var marked := g.slots[k := x.(status := Booked)];
    var booked := g.(slots := marked);
    assert Catalog.MarkSlots(g.slots, x.id) == marked;
    assert Catalog.MarkGames([g], g.id, x.id) == [booked];
    assert Catalog.SlotAt([g], g.id, x.id, 0, k);
    assert Catalog.LastGame([booked], g.id) == Some(booked);
    assert Catalog.LastSlotOf(g.slots, x.id) == Some(x);
    assert Catalog.LastSlot([g], g.id, x.id) == Some(x);
  }

  /** The overlapping run is not in order: interval 2 fires with a call in
      flight. */
  lemma SetupNotSerial(s0: System, ins: seq<Input>, n: nat, amount: string)
    requires n < |ins| && Run(s0, ins[..n], amount).page.inflight != []
    requires ins[n].event.Fire? && ins[n].event.timer in Run(s0, ins[..n], amount).page.live
    ensures !Serial(s0, ins, amount)
  {
    if Serial(s0, ins, amount) {
      SerialAt(s0, ins, n, amount);
    }
  }

  /** In a run that is in order, input `n` is in order in the state the
      inputs before it lead to. */
  lemma {:induction false} SerialAt(s: System, ins: seq<Input>, n: nat, amount: string)
    requires n < |ins| && Serial(s, ins, amount)
    ensures InOrder(Run(s, ins[..n], amount), ins[n])
    decreases n
  {
    if n > 0 {
      SerialAt(Step(s, ins[0], amount), ins[1..], n - 1, amount);
      assert ins[..n][1..] == ins[1..][..n - 1];
    } else {
      assert ins[..0] == [];
    }
  }
}

=== FILE: login.dfy ===
/** The login form (components/Login.tsx): a phone stage and a one-time
    code stage. Inputs keep only ASCII digits and are cut to a fixed length;
    the phone stage advances on exactly ten digits, and the demo accepts the
    one code "123456". */
module Login {
  import opened Types

  const PhoneLength: nat := 10
  const OtpLength: nat := 6
  const DemoOtp: string := "123456"

  /** `value.replace(/\D/g, '')`. */
  function DigitsOnly(s: string): (r: string)
    ensures AllDigits(r)
    ensures |r| <= |s|
  {
    if |s| == 0 then ""
    else
      (if IsDigit(s[0]) then [s[0]] else "") + DigitsOnly(s[1..])
  }

  /** `value.slice(0, n)`. */
  function Truncate(s: string, n: nat): (r: string)
    ensures |r| == if |s| <= n then |s| else n
    ensures r == s[..|r|]
  {
    if |s| <= n then s else s[..n]
  }

  /** The value an input change stores: digits only, at most `limit` of
      them, and they are the first digits of the raw input. */
  function Sanitize(raw: string, limit: nat): (r: string)
    ensures AllDigits(r)
    ensures |r| <= limit && |r| <= |DigitsOnly(raw)|
    ensures r == DigitsOnly(raw)[..|r|]
    ensures |r| == limit || r == DigitsOnly(raw)
  {
    Truncate(DigitsOnly(raw), limit)
  }

  /** Digit filtering removes exactly the non-digits, keeping order: it
      distributes over concatenation. */
  lemma {:induction false} DigitsOnlyAppend(a: string, b: string)
    ensures DigitsOnly(a + b) == DigitsOnly(a) + DigitsOnly(b)
    decreases |a|
  {
    if |a| == 0 {
      assert a + b == b;
    } else {
      assert (a + b)[0] == a[0];
      assert (a + b)[1..] == a[1..] + b;
      DigitsOnlyAppend(a[1..], b);
      var head := if IsDigit(a[0]) then [a[0]] else "";
      assert DigitsOnly(a + b) == head + DigitsOnly(a[1..] + b);
    }
  }

  /** On one character the filter keeps a digit and drops anything else;
      with `DigitsOnlyAppend` this fixes the filter on every string. */
  lemma DigitsOnlyChar(c: char)
    ensures DigitsOnly([c]) == if IsDigit(c) then [c] else ""
  {
    assert [c][1..] == "";
  }

  /** The filter keeps every digit as often as it occurs and no other
      character at all. */
  lemma {:induction false} DigitsOnlyCounts(s: string)
    ensures forall c :: multiset(DigitsOnly(s))[c] == if IsDigit(c) then multiset(s)[c] else 0
    decreases |s|
  {
    if |s| > 0 {
      DigitsOnlyCounts(s[1..]);
      assert s == [s[0]] + s[1..];
    }
  }

  /** A string of digits passes the filter unchanged. */
  lemma {:induction false} DigitsOnlyKeepsDigits(s: string)
    requires AllDigits(s)
    ensures DigitsOnly(s) == s
    decreases |s|
  {
    if |s| > 0 {
      DigitsOnlyKeepsDigits(s[1..]);
      assert s == [s[0]] + s[1..];
    }
  }

  /** Sanitising is idempotent: a stored value fed back in comes out the same. */
  lemma SanitizeIdempotent(raw: string, limit: nat)
    ensures Sanitize(Sanitize(raw, limit), limit) == Sanitize(raw, limit)
  {
    DigitsOnlyKeepsDigits(Sanitize(raw, limit));
  }

  /** A phone number field that already holds digits only, up to the limit,
      is kept as typed. */
  lemma SanitizeKeepsValid(s: string, limit: nat)
    requires AllDigits(s) && |s| <= limit
    ensures Sanitize(s, limit) == s
  {
    DigitsOnlyKeepsDigits(s);
  }

  datatype Form = Form(phone: string, otp: string, otpSent: bool)

  function Initial(): Form {
    Form("", "", false)
  }

  /** "Send OTP" is enabled. */
  predicate SendOtpEnabled(f: Form) {
    |f.phone| == PhoneLength
  }

  /** "Verify & Login" is enabled. */
  predicate VerifyEnabled(f: Form) {
    |f.otp| == OtpLength
  }

  /** `handlePhoneNumberChange`. */
  function PhoneChange(f: Form, raw: string): (r: Form)
    ensures r.phone == Sanitize(raw, PhoneLength)
    ensures AllDigits(r.phone) && |r.phone| <= PhoneLength
    ensures r.otp == f.otp && r.otpSent == f.otpSent
  {
    f.(phone := Sanitize(raw, PhoneLength))
  }

  /** `handleOtpChange`. */
  function OtpChange(f: Form, raw: string): (r: Form)
    ensures r.otp == Sanitize(raw, OtpLength)
    ensures AllDigits(r.otp) && |r.otp| <= OtpLength
    ensures r.phone == f.phone && r.otpSent == f.otpSent
  {
    f.(otp := Sanitize(raw, OtpLength))
  }

  /** `handlePhoneNumberSubmit`: the code stage opens iff the number has
      exactly ten characters; otherwise nothing changes. */
  function PhoneSubmit(f: Form): (r: Form)
    ensures r.otpSent <==> f.otpSent || |f.phone| == PhoneLength
    ensures |f.phone| != PhoneLength ==> r == f
    ensures r.phone == f.phone && r.otp == f.otp
  {
    if |f.phone| == PhoneLength then f.(otpSent := true) else f
  }

  /** The result of submitting the code: the form left behind and whether
      `onLogin` was called. */
  datatype Submitted = Submitted(form: Form, loggedIn: bool)

  /** `handleOtpSubmit`: `onLogin` is called iff the code is the demo code;
      otherwise the code field is emptied and the stage stays. */
  function OtpSubmit(f: Form): (r: Submitted)
    ensures r.loggedIn <==> f.otp == DemoOtp
    ensures !r.loggedIn ==> r.form == f.(otp := "")
    ensures r.form.phone == f.phone && r.form.otpSent == f.otpSent
  {
    if f.otp == DemoOtp then Submitted(f, true) else Submitted(f.(otp := ""), false)
  }

  /** "Change Number": back to the phone stage, keeping the number typed. */
  function ChangeNumber(f: Form): (r: Form)
    ensures !r.otpSent && r.phone == f.phone && r.otp == f.otp
  {
    f.(otpSent := false)
  }

  datatype Event =
    | PhoneInput(raw: string)
    | SubmitPhone
    | OtpInput(raw: string)
    | SubmitOtp
    | ChangeNumberClicked

  /** One user action. Only the controls of the stage on screen exist, and a
      form whose submit button is disabled does not submit, so any other
      action leaves the form as it is. */
  function Step(f: Form, e: Event): (r: Submitted)
    ensures r.loggedIn ==> f.otpSent && f.otp == DemoOtp
    ensures !f.otpSent && !e.PhoneInput? && !e.SubmitPhone? ==> r == Submitted(f, false)
  {
    match e
    case PhoneInput(raw) => Submitted(if !f.otpSent then PhoneChange(f, raw) else f, false)
    case SubmitPhone => Submitted(if !f.otpSent && SendOtpEnabled(f) then PhoneSubmit(f) else f, false)
    case OtpInput(raw) => Submitted(if f.otpSent then OtpChange(f, raw) else f, false)
    case SubmitOtp => if f.otpSent && VerifyEnabled(f) then OtpSubmit(f) else Submitted(f, false)
    case ChangeNumberClicked => Submitted(if f.otpSent then ChangeNumber(f) else f, false)
  }

  /** What holds of every form reachable from the initial one. */
  ghost predicate Valid(f: Form) {
    && AllDigits(f.phone) && |f.phone| <= PhoneLength
    && AllDigits(f.otp) && |f.otp| <= OtpLength
    && (f.otpSent ==> |f.phone| == PhoneLength)
  }

  lemma StepPreservesValid(f: Form, e: Event)
    requires Valid(f)
    ensures Valid(Step(f, e).form)
  {
  }

  /** Runs actions until `onLogin` is called; the form unmounts then, so the
      remaining actions have no effect. */
  function Run(f: Form, es: seq<Event>): (r: Submitted)
    decreases |es|
  {
    if |es| == 0 then Submitted(f, false)
    else
      var s := Step(f, es[0]);
      if s.loggedIn then s else Run(s.form, es[1..])
  }

  /** Whatever the user types and clicks, the fields hold digits only within
      their limits, and a login happens only in the code stage, with a
      ten-digit number entered and the demo code typed. */
  lemma {:induction false} RunKeepsValid(f: Form, es: seq<Event>)
    requires Valid(f)
    ensures Valid(Run(f, es).form)
    ensures Run(f, es).loggedIn ==>
      Run(f, es).form.otpSent && Run(f, es).form.otp == DemoOtp && |Run(f, es).form.phone| == PhoneLength
    decreases |es|
  {
    if |es| > 0 {
      StepPreservesValid(f, es[0]);
      var s := Step(f, es[0]);
      if !s.loggedIn {
        RunKeepsValid(s.form, es[1..]);
      }
    }
  }

  /** From the first render, no sequence of actions logs in without passing
      both gates. */
  lemma LoginNeedsBothGates(es: seq<Event>)
    ensures Run(Initial(), es).loggedIn ==>
      AllDigits(Run(Initial(), es).form.phone) && |Run(Initial(), es).form.phone| == PhoneLength
      && Run(Initial(), es).form.otp == DemoOtp
  {
    RunKeepsValid(Initial(), es);
  }
}

=== FILE: search.dfy ===
/** The catalog search of the home screen (`filteredGames`, App.tsx): a game
    is shown when its lower-cased title contains the lower-cased query. Case
    folding is modelled for ASCII letters only. */
module Search {
  import opened Types

  /** ASCII `toLowerCase` of one character. */
  function LowerChar(c: char): char {
    if 'A' <= c <= 'Z' then (c as int + 32) as char else c
  }

  /** ASCII `toLowerCase` of a string: same length, letter by letter. */
  function Lower(s: string): (r: string)
    ensures |r| == |s|
    ensures forall i :: 0 <= i < |s| ==> r[i] == LowerChar(s[i])
  {
    if |s| == 0 then "" else [LowerChar(s[0])] + Lower(s[1..])
  }

  /** `needle` occurs in `hay` starting at position `i`. */
  ghost predicate OccursAt(hay: string, needle: string, i: int) {
    0 <= i && i + |needle| <= |hay| && hay[i..i + |needle|] == needle
  }

  /** `hay.includes(needle)`. */
  function Includes(hay: string, needle: string): (r: bool)
    ensures r <==> exists i :: OccursAt(hay, needle, i)
    decreases |hay|
  {
    if |needle| > |hay| then false
    else if hay[..|needle|] == needle then
      assert OccursAt(hay, needle, 0);
      true
    else
      var tail := hay[1..];
      var r := Includes(tail, needle);
      assert forall i :: OccursAt(tail, needle, i) <==> OccursAt(hay, needle, i + 1);
      assert !OccursAt(hay, needle, 0);
      assert (exists i :: OccursAt(hay, needle, i)) ==> exists i :: OccursAt(tail, needle, i) by {
        if exists i :: OccursAt(hay, needle, i) {
          var i :| OccursAt(hay, needle, i);
          assert OccursAt(tail, needle, i - 1);
        }
      }
      r
  }

  /** The predicate `filteredGames` keeps a game by. */
  predicate Matches(g: Game, query: string) {
    Includes(Lower(g.title), Lower(query))
  }

  /** `games.filter(...)`: keeps, in order, exactly the games that match,
      each as often as it occurs. */
  function Filter(games: seq<Game>, query: string): (r: seq<Game>)
    ensures |r| <= |games|
    ensures forall g :: multiset(r)[g] == if Matches(g, query) then multiset(games)[g] else 0
  {
    if |games| == 0 then []
    else
      assert games == [games[0]] + games[1..];
      (if Matches(games[0], query) then [games[0]] else []) + Filter(games[1..], query)
  }

  /** `filteredGames`: an empty query shows the whole catalog. */
  function FilteredGames(games: seq<Game>, query: string): seq<Game> {
    if query == "" then games else Filter(games, query)
  }

  /** The filter keeps relative order: filtering a concatenation is the
      concatenation of the filtered parts. */
  lemma {:induction false} FilterAppend(a: seq<Game>, b: seq<Game>, query: string)
    ensures Filter(a + b, query) == Filter(a, query) + Filter(b, query)
    decreases |a|
  {
    if |a| == 0 {
      assert a + b == b;
    } else {
      assert (a + b)[1..] == a[1..] + b;
      FilterAppend(a[1..], b, query);
    }
  }

  /** The empty query is contained in every title, so the early return of
      `filteredGames` agrees with the filter it skips. */
  lemma {:induction false} EmptyQueryKeepsAll(games: seq<Game>)
    ensures Filter(games, "") == games
    ensures FilteredGames(games, "") == games
    decreases |games|
  {
    if |games| > 0 {
      assert OccursAt(Lower(games[0].title), Lower(""), 0);
      EmptyQueryKeepsAll(games[1..]);
      assert games == [games[0]] + games[1..];
    }
  }

  /** Searching is the filter for every query, empty or not. */
  lemma FilteredGamesIsFilter(games: seq<Game>, query: string)
    ensures FilteredGames(games, query) == Filter(games, query)
  {
    if query == "" {
      EmptyQueryKeepsAll(games);
    }
  }

  /** Searching is case-insensitive for ASCII letters: a query and its
      lower-cased form show the same games. */
  lemma {:induction false} QueryCaseIgnored(games: seq<Game>, query: string)
    ensures Filter(games, Lower(query)) == Filter(games, query)
    decreases |games|
  {
    LowerIdempotent(query);
    if |games| > 0 {
      QueryCaseIgnored(games[1..], query);
    }
  }

  /** Lower-casing twice is lower-casing once. */
  lemma LowerIdempotent(s: string)
    ensures Lower(Lower(s)) == Lower(s)
  {
    var once := Lower(s);
    assert forall i :: 0 <= i < |s| ==> Lower(once)[i] == once[i];
  }
}

=== FILE: types.dfy ===
/** The records shared by the catalog, the booking page and the ledger
    (types.ts). Numeric ids are JavaScript numbers in the application; the
    model takes them to be integers. */
module Types {

  /** A value that may be missing: `null`/`undefined` in the application. */
  datatype Option<+T> = None | Some(value: T)

  datatype SlotStatus = Available | Booked

  /** A bookable time window of one game. `time` is a display label such as "10:00 - 11:00". */
  datatype Slot = Slot(id: int, time: string, status: SlotStatus)

  datatype Console = PS5 | PS4

  datatype Game = Game(
    id: int,
    title: string,
    description: string,
    imageUrl: string,
    console: Console,
    slots: seq<Slot>,
    characterImageUrl: string,
    characterQuote: string)

  /** One entry of the booking history. `bookingDate` is an ISO time stamp,
      kept as the opaque string the clock produced. */
  datatype Booking = Booking(
    id: string,
    gameId: int,
    gameTitle: string,
    slotTime: string,
    bookingDate: string,
    amount: string)

  /** An ASCII decimal digit: a character the pattern `\D` does not match. */
  predicate IsDigit(c: char) {
    '0' <= c <= '9'
  }

  predicate AllDigits(s: string) {
    forall i :: 0 <= i < |s| ==> IsDigit(s[i])
  }

  /** The root's `handleBookSlot` callback. It is memoised over the catalog
      and the history, so a given instance is known by the two values it
      closed over and applies its update to them, however stale. */
  datatype Handler = Handler(games: seq<Game>, history: seq<Booking>)
}
